=== FILE: README.md ===
# Lesson booking engine — a Dafny model

This project models the booking engine of a single-teacher lesson scheduler.
The listing offers 50-minute lessons on the teacher's hourly grid. The booking
route accepts any start that is inside the booking window and clear of other
events by the buffer, whether or not it is on the grid. Every booking is an
event on one remote calendar, and the calendar stores the booking's record as
JSON at the end of the event description.

All instants are integers: milliseconds since the Unix epoch. The teacher's
zone, Asia/Tokyo, is the fixed offset UTC+9, and a day is 24 hours. The remote
calendar is a sequence of events. Reaching it is a `Link` parameter: up, down,
or with no calendar ID configured. The clock, the random number, the UTC date,
the event identifier the remote assigns, the JSON codec, and the e-mail,
date-time and date parsers are also parameters.

Modules, one per component:

- `Config` (`config.dfy`) holds the fixed numbers of `lib/constants.ts`.
- `Policy` (`policy.dfy`) covers the booking window, the cancel deadline, the
  modify deadline with its count limit, and the lesson end time.
- `Schemas` (`schemas.dfy`) covers the booking-form, booking-query and
  modify-request schemas, including the booking-ID pattern. Lengths are
  counted in UTF-16 code units, as the schema library counts them.
- `Errors` (`errors.dfy`) is the error-code taxonomy. The `BookingError`
  constructor stands in for `createBookingError`. Each message is the
  constructor that says what the message reports.
- `BookingIds` (`booking_id.dfy`) builds `MZK-YYYYMMDD-XXXXXX` from the ISO
  rendering of the UTC date and `substring(2, 8)` of the random number
  written in base 36.
- `Metadata` (`metadata.dfy`) holds the metadata record, the description
  template, the search for `METADATA:(.+)$`, and the modification bump.
- `CalendarAdapter` (`calendar.dfy`) covers the busy query, the
  re-check-before-write, event creation, and the time update.
- `SlotGenerator` (`slots.dfy`) is the hourly candidate loop and its three
  filters.
- `BookRoute` (`book_route.dfy`) models `POST /api/calendar/book` as a
  transition over the calendar: validate, then the policy check, then the
  re-check, then the insert.
- `SlotsRoute` (`slots_route.dfy`) models `GET /api/calendar/available-slots`:
  the date checks, the generator, and an order-preserving filter by the
  booking window.
- `BookingFlow` (`flow.dfy`) holds properties that span both endpoints.

Quirks of the source the model keeps:

- `calculateEndTime` returns its argument unchanged (see Findings). Nothing
  calls it; the routes add the lesson duration themselves.
- The generator steps `hour++` and never uses `SLOT_INTERVAL_MINUTES`. The two
  happen to agree, because the interval is 60 minutes.
- The "lesson ends after working hours" guard can never discard a slot. A
  50-minute lesson that starts on the hour ends inside the same local hour.
- The random suffix has fewer than six characters when the random number has
  fewer than six base-36 digits. Math.random() = 0.5 renders as `0.i`, which
  gives the ID `MZK-20240101-I`. The query pattern rejects that ID.
- A year after 9999 renders as `+YYYYYY`, and the ID keeps the plus sign. A
  negative year loses its minus sign together with the dashes.
- A U+2028 or U+2029 in the name, e-mail, zone or note reaches the JSON text
  unescaped. The pattern's `.` does not match it, so the metadata of such a
  booking cannot be read back.
- The create handler checks only the form, the booking window and the
  buffered re-check. It does not check that the start is on the hourly grid or
  inside working hours, so a request for 10:37, or for 03:00 teacher time, is
  booked when it is in the window and clear. `BookRoute.Post` accepts such
  starts too.
- The generator pads a candidate only after it, `[s, s + 60 min)`, while the
  create handler's re-check pads both sides, `[s - 10 min, s + 60 min)`. An
  event ending at 10:55 leaves the 11:00 slot listed, and booking it is then
  refused with 409 SLOT_TAKEN.

## Model

| member | source | states |
|---|---|---|
| `Config.WorkingHoursWellFormed` | lib/constants.ts:15-18 | Working hours start at 9 and end at 21, a non-empty range inside one day. |
| `Config.LessonPlusBufferIsSlotInterval` | lib/constants.ts:11-12 | Lesson (50 min) plus buffer (10 min) equals the 60-minute slot interval, which is one hour. |
| `Config.BookingWindowNonEmpty` | lib/constants.ts:25-26 | The minimum advance (24 h) is less than the maximum advance (30 days), so the window is non-empty. |
| `Config.DeadlinesAndLimit` | lib/constants.ts:21-27 | The cancel and modify deadlines are both 24 h, and at most 2 modifications are allowed. |
| `Policy.IsBookingTimeValid` | lib/booking.ts:69-94 | "Too soon" exactly when start < now + 24 h. "Too far" exactly when start is not too soon and start > now + 30 days. Accepted exactly when start lies in the closed interval [now + 24 h, now + 30 days]. |
| `Policy.BookingWindowEdges` | lib/booking.ts:76-91 | Both edges of the window are accepted. One millisecond before the lower edge is too soon, and one millisecond after the upper edge is too far. |
| `Policy.BookingWindowIsConvex` | lib/booking.ts:69-94 | Any start between two accepted starts is accepted. |
| `Policy.CanCancelBooking` | lib/booking.ts:99-114 | Cancelling is refused exactly when now > lessonStart − 24 h, with the deadline reason. At the deadline itself, cancelling is allowed. |
| `Policy.CanModifyBooking` | lib/booking.ts:119-146 | A count ≥ 2 is refused for the count, whatever the time. Below the limit, modifying is refused for the deadline exactly when now > lessonStart − 24 h. Modifying is allowed exactly when both checks pass. |
| `Policy.ModifyAndCancelShareDeadline` | lib/booking.ts:99-146 | While modifications remain, modifying and cancelling are allowed at exactly the same instants. |
| `Policy.CalculateEndTimeLosesLesson` | lib/booking.ts:151-153 | As written, calculateEndTime returns the start, one lesson duration short of the lesson's end. |
| `Policy.LessonEnd` | app/api/calendar/book/route.ts:39-40 | The booked interval ends 50 minutes after its start. Adding the buffer reaches the next hourly start. |
| `Schemas.Utf16Length` | lib/booking.ts:14-30 | Schema lengths count UTF-16 code units: between one and two per character. |
| `Schemas.ValidateBookingForm` | lib/booking.ts:13-31 | A JSON body that is not an object fails with "expected object". An object is accepted exactly when all of these hold: the name is a string of 1..50 units; the e-mail is a string that passes the e-mail check; the zone is absent or a string; the start time is a string that parses; and the note is absent or a string of at most 500 units. An accepted form keeps its fields and defaults an absent zone to Asia/Taipei. A missing, non-string or empty name is reported first. |
| `Schemas.BookingIdFormatShape` | lib/booking.ts:41 | `^MZK-\d{8}-[A-Z0-9]{6}$` accepts "MZK-" + date + "-" + suffix exactly when the date is 8 digits and the suffix is 6 upper-case alphanumerics. The literal is the configured prefix. |
| `Schemas.ValidateBookingQuery` | lib/booking.ts:38-45 | A query is accepted exactly when the ID matches the 19-character pattern and the e-mail passes. A malformed ID is reported as such. |
| `Schemas.ValidateModifyRequest` | lib/booking.ts:52-62 | A modify request is accepted exactly when the ID matches the pattern, the e-mail passes and the new start parses. The result carries the parsed instant. |
| `BookingIds.DigitsRoundTrip` | lib/google-calendar.ts:46 | Zero-padded date digits read back as the number they render. |
| `BookingIds.DateStampDigits` | lib/google-calendar.ts:46 | The dashless ISO date is 8 digits exactly when the year is at most 9999. After 9999 it starts with '+' and has 9 characters. |
| `BookingIds.RandomSuffix` | lib/google-calendar.ts:47 | `substring(2, 8)` yields min(max(length − 2, 0), 6) characters. |
| `BookingIds.GenerateBookingId` | lib/google-calendar.ts:44-49 | Every ID starts with the configured prefix and a dash. |
| `BookingIds.GeneratedIdMatchesPattern` | lib/google-calendar.ts:44-49 | For any base-36 rendering of a random number in [0, 1), the ID matches the query pattern exactly when the year is at most 9999 and the rendering has at least six digits after "0.". |
| `BookingIds.ShortRandomGivesUnqueryableId` | lib/google-calendar.ts:47 | Math.random() = 0.5 on 2024-01-01 gives the ID "MZK-20240101-I", which the query pattern rejects. |
| `Metadata.NewMetadata` | lib/google-calendar.ts:175-183 | A fresh record has modification count 0 and the new booking ID. It copies the student fields, and a missing note becomes "". |
| `Metadata.FindMatch` | lib/google-calendar.ts:263 | The search returns the leftmost position where the marker is followed by a non-empty run of non-line-terminators up to the end, or none if no position matches. |
| `Metadata.ExtractMetadataText` | lib/google-calendar.ts:262-265 | There is no capture exactly when no position matches. A capture is the whole rest of the description after the marker at the leftmost matching position. It is non-empty and free of line terminators. |
| `Metadata.ExtractBookingMetadata` | lib/google-calendar.ts:253-272 | A missing description, or one without a match, gives null. Otherwise the result is JSON.parse of the capture, so a capture that does not parse gives null. |
| `Metadata.ExtractFromDescription` | lib/google-calendar.ts:187 | The text extracted from a template-built description is the JSON written, exactly when that JSON is non-empty and has no line terminator. This holds whatever the name, e-mail or note contain. |
| `Metadata.LineSeparatorHidesMetadata` | lib/google-calendar.ts:187 | For a student named "A\u2028B", the raw U+2028 that JSON.stringify leaves in the JSON breaks the marker line. The description then has no match, and extraction gives null. |
| `Metadata.BumpModification` | lib/google-calendar.ts:289-293 | An update raises the count by exactly 1, stamps lastModifiedAt, and keeps every other field. |
| `Metadata.RepeatedBumps` | lib/google-calendar.ts:289-293 | After n updates from a fresh record the count is n. The booking ID, e-mail and creation time are unchanged. |
| `CalendarAdapter.QueryBusy` | lib/google-calendar.ts:54-76 | The busy answer is empty exactly when no event meets the window. Every answered interval meets the window, and every event meeting it is answered. |
| `CalendarAdapter.GetBusySlots` | lib/google-calendar.ts:54-76 | The query fails when no calendar ID is set or the remote is down. Otherwise it returns the busy answer. |
| `CalendarAdapter.CheckSlotAvailability` | lib/google-calendar.ts:336-346 | Succeeds exactly when the remote is up. The slot is free exactly when no event meets [start − 10 min, end + 10 min). |
| `CalendarAdapter.CreateBookingEvent` | lib/google-calendar.ts:163-219 | Succeeds exactly when the remote is up. It appends exactly one event at [start, end) and keeps the earlier events. It answers with the remote's event ID and the generated booking ID. |
| `CalendarAdapter.CreatedEventMetadata` | lib/google-calendar.ts:170-187 | Suppose the record's JSON is non-empty, contains no line terminator (\n, \r, U+2028, U+2029), and parses back to the record. Then the created event's metadata reads back as the whole fresh record: the booking ID the creation answered with, and the student's name, e-mail and zone. The note is the one given, or "" when there is none. The count is 0, there is no modification stamp, and createdAt is the creation time. |
| `CalendarAdapter.PatchEvent` | lib/google-calendar.ts:297-312 | The patch replaces the interval and description of the events with the given ID, and leaves every other event as it was. |
| `CalendarAdapter.UpdateBookingTime` | lib/google-calendar.ts:277-315 | With no calendar ID it throws, even for null metadata. Null metadata otherwise gives false and writes nothing. With metadata, the update succeeds exactly when the remote is up and the event exists, and success always answers true. Otherwise the patch throws: a transport error, or event-not-found. On success the events with that ID move to the new interval and get the updated description, and all other events are unchanged. |
| `CalendarAdapter.UpdateCountsModification` | lib/google-calendar.ts:286-295 | Suppose the bumped record's JSON is non-empty, contains no line terminator, and parses back. Then after an update the moved event's metadata reads back with the count one higher and every other field kept. |
| `SlotGenerator.LocalHour` | lib/google-calendar.ts:121 | The teacher-local clock hour is in 0..23. |
| `SlotGenerator.EndHourGuardNeverFires` | lib/google-calendar.ts:117-122 | For each working hour h, the lesson's local end hour is h, so the guard `endHour > 21` never fires. |
| `SlotGenerator.EmittedIffBookable` | lib/google-calendar.ts:118-134 | The source's three per-candidate checks come down to two: the start is after now, and the buffered interval meets no busy interval. |
| `SlotGenerator.SlotsFrom` | lib/google-calendar.ts:110-142 | Emitted slots last one lesson, start strictly later one after another, and come from working hours. A working hour's slot is present exactly when it is bookable. |
| `SlotGenerator.GeneratedSlotsExact` | lib/google-calendar.ts:110-142 | The output is exactly the slots of working hours 9..20 that start after now and whose [start, start + 60 min) meets no busy interval. |
| `SlotGenerator.GeneratedSlotsInWorkingHours` | lib/google-calendar.ts:110-141 | Every emitted slot is in the future, one lesson long, and inside 09:00–21:00 teacher time of its day. |
| `SlotGenerator.GeneratedSlotsKeepBuffer` | lib/google-calendar.ts:117-118 | Emitted slots, padded by the 10-minute buffer, do not overlap each other. |
| `SlotGenerator.HourStepIsSlotInterval` | lib/google-calendar.ts:110-114 | Consecutive candidates are one hour apart, which is the declared slot interval. A lesson plus its buffer reaches exactly the next candidate. |
| `SlotGenerator.DayQueryFreeness` | lib/google-calendar.ts:89-99 | A working-hour candidate is free of the day's busy answer exactly when it is free of every event of the calendar. The comparison uses the reference list `AllIntervals`, which holds every event's interval. |
| `SlotGenerator.DayQuerySuffices` | lib/google-calendar.ts:89-99 | Generating from the day's busy query gives the same slots as generating from the whole calendar. |
| `BookRoute.Post` | app/api/calendar/book/route.ts:19-103 | Rejections leave the calendar unchanged, each with status and code 400 INVALID_INPUT, 409 SLOT_TAKEN or 500 INTERNAL_ERROR. An unreadable body, or an unreachable remote, gives 500. A schema failure gives 400 with the first issue, and a window refusal gives 400 with the policy reason. A clash in the re-check gives 409. Booking succeeds exactly when the form is valid, the start is in the window, the remote is up and the slot is clear. Success appends one event at [start, start + 50 min) and returns its generated ID. |
| `BookRoute.PostPreservesSeparation` | app/api/calendar/book/route.ts:54-79 | If no two events were within the 10-minute buffer of each other before a create, none are after it. |
| `BookRoute.SecondBookingOfSlotFails` | app/api/calendar/book/route.ts:54-67 | After a booking at s, a second request starting less than an hour from s is refused and adds nothing. If it is inside the window, it is refused with 409 SLOT_TAKEN. |
| `BookRoute.BookedMetadataReadsBack` | app/api/calendar/book/route.ts:69-89 | Suppose the new record's JSON is non-empty, contains no line terminator, and parses back. Then after a successful create, the new event's metadata reads back as the fresh record of the validated form: the returned booking ID, the name and e-mail as sent, the zone (Asia/Taipei when absent), the note or "", and count 0. |
| `SlotsRoute.FilterBookable` | app/api/calendar/available-slots/route.ts:44-48 | The filter result is a subsequence of its input. Every kept slot is in the booking window, and every input slot in the window is kept. |
| `SlotsRoute.SubsequenceKeepsOrder` | app/api/calendar/available-slots/route.ts:44-48 | Filtering keeps strictly increasing starts increasing, and keeps only input slots. |
| `SlotsRoute.Get` | app/api/calendar/available-slots/route.ts:14-72 | An absent or empty date gives 400 INVALID_INPUT. An unparsable date gives 400 INVALID_INPUT. For a parsable date, the listing succeeds exactly when the remote is up and one of two things holds: the student zone is one the formatter accepts, or no generated slot is inside the booking window. Every 500 is INTERNAL_ERROR (`SlotsRoute.FailedListingIs500` adds that, for a parsable date, every answer other than the listing is that 500). The zone defaults to Asia/Taipei. The slots are the generator's output filtered by the booking window, in order. |
| `SlotsRoute.FailedListingIs500` | app/api/calendar/available-slots/route.ts:64-70 | For a parsable date, any answer other than the listing is exactly 500 INTERNAL_ERROR with the fetch-failure message. That covers both an unreachable remote and a student zone the formatter refuses. |
| `SlotsRoute.ListedSlots` | app/api/calendar/available-slots/route.ts:38-55 | For a student zone the formatter accepts, the listing succeeds. A working hour's slot is listed exactly when three things hold: it is after the generator's clock; it is clear of every event by the buffer; and it is inside the booking window. The listing is in increasing order, and each slot lasts one lesson. |
| `BookingFlow.BookedSlotLeavesListing` | app/api/calendar/book/route.ts:70-79 | Once a working-hour slot is booked, the next listing of its day, for a zone the formatter accepts, succeeds and does not offer it. |
| `BookingFlow.RecheckStricterThanListing` | lib/google-calendar.ts:336-346 | If the create handler's re-check accepts a start, that start is clear of every event in the generator's sense. The re-check never admits a slot the listing would hide. |
| `BookingFlow.ListedButRefused` | lib/google-calendar.ts:117-127 | The converse fails. Take an event that ends within the 10-minute buffer before a working-hour slot that is still ahead of the generator's clock. The generator lists that slot, because it pads only after the slot, and the re-check refuses it, because it pads on both sides. |
| `BookingFlow.NewYearScenario` | lib/booking.ts:76-91 | At 2024-01-01T00:00Z, 12:00 the same day is too soon, 2024-02-05T10:00Z is too far, and 2024-01-05T10:00Z is accepted. |
| `BookingFlow.ModificationLimitAfterUpdates` | lib/booking.ts:130-145 | From a fresh record, two updates exhaust modification regardless of time. Before that, modifying is allowed exactly when cancelling is. |

## Left out

- The React and Next.js pages and components are left out. They are presentation only.
- Google authentication, the environment variables and the HTTP transport are left out. A missing calendar ID is `Link.Unconfigured`, and any transport or authentication error is `Link.Down`.
- The free/busy service is modelled as the intervals of all events that meet the window. It does not merge overlapping periods, clip them to the window, or skip transparent events. Merging and clipping do not change emptiness or overlap with a slot.
- The event summary, attendees, reminders, `sendUpdates` notifications and the returned `htmlLink` are left out. None of them affects any decision.
- `findEventByBookingId` and `cancelBooking` are left out. So are the get, modify and cancel endpoints that use them, with their e-mail matching. They are outside the engine modelled here.
- The time zones are fixed offsets. `lib/timezone.ts` is left out, as are the `TEACHER_TIMEZONE` override and the HH:mm display strings of the listing. One effect of the formatter is kept: it throws on a zone it does not know. That is the `zoneKnown` parameter of `SlotsRoute.Get`, and the teacher's zone is taken to be known. DST and the server's local zone in `addDays`, `startOfDay` and `setHours` are left out too: 30 days is 30 × 24 hours.
- Each clock reading in the source (`new Date()`) is a parameter. The generator reads the clock once per candidate; the model reads it once for the whole loop. The listing's window filter also reads the clock once per slot; the model reads it once for the whole filter.
- JSON.stringify and JSON.parse are the two functions of a `Codec` parameter. Round-tripping is a hypothesis of the lemmas that need it.
- The schema library's e-mail and ISO date-time checks are parameters, and so is the date parser of the listing. A field's JSON value is modelled as absent, a string, or some other type. Which other type it is matters only to the text of the message, which is not modelled.
- Upper-casing is modelled for ASCII only, which covers every character a base-36 rendering contains.
- Instants are unbounded integers. The ±8.64·10^15 ms range of a JavaScript date is not modelled.
- Two simultaneous creates are not modelled. Only sequential re-check semantics are covered.
- `CalendarAdapter.CreatedEventMetadata`, `CalendarAdapter.UpdateCountsModification`, `BookRoute.BookedMetadataReadsBack`: their read-back holds only under three hypotheses about the JSON text: it is non-empty, it parses back, and it is free of line terminators. JSON.stringify does not guarantee the last one, because it leaves U+2028 and U+2029 inside strings unescaped. `Metadata.LineSeparatorHidesMetadata` shows a name for which the record is never found again.

## Findings

| source | as written | input that shows it | evidently intended | confidence | as-written member | corrected member |
|---|---|---|---|---|---|---|
| lib/booking.ts:151-153 | `calculateEndTime` adds zero hours, so it returns the start. | Any start s: the result is s, a lesson of length 0. | End = start + 50 minutes. The inline comment names addMinutes, and both routes add `LESSON_DURATION_MINUTES`. | medium; not executed | `Policy.CalculateEndTimeLosesLesson` | `Policy.LessonEnd` |

=== FILE: book_route.dfy ===
/**
 * The create-booking endpoint (app/api/calendar/book/route.ts) as a state
 * transition over the remote calendar: validate the form, check the booking
 * window, re-check that the slot is free, then insert one event. Every
 * refusal leaves the calendar as it was.
 */
module BookRoute {
  import opened Wrappers
  import opened Config
  import opened Schemas
  import opened Policy
  import opened Errors
  import opened Metadata
  import opened CalendarAdapter
  import BookingIds

  datatype BookResponse =
    | Booked(bookingId: string, eventId: string)          // status 200
    | Rejected(status: int, error: BookingError)

  /** The error every exception inside the handler is turned into. */
  const CREATE_FAILED: BookResponse := Rejected(500, BookingError(INTERNAL_ERROR, CreateFailed))

  /** The lesson the form asks for, when the form is valid. */
  function RequestedStart(body: Option<JsonBody>, fc: FormatCheckers): Option<Instant> {
    if body.Some? && ValidateBookingForm(body.value, fc).Success?
    then Some(ValidateBookingForm(body.value, fc).value.startTime)
    else None
  }

  /** No event comes within the buffer of the lesson [start, LessonEnd(start)). */
  predicate SlotClear(cal: Calendar, start: Instant) {
    forall i :: 0 <= i < |cal| ==> !Overlaps(cal[i], start - BUFFER_MS, LessonEnd(start) + BUFFER_MS)
  }

  /**
   * POST /api/calendar/book. `body` is None when the request body is not
   * JSON (reading it throws); a JSON value that is not an object fails the schema. The response carries the booking ID of the
   * one event added on success.
   */
  function Post(body: Option<JsonBody>, fc: FormatCheckers, now: Instant,
                link: Link, cal: Calendar, env: CreationEnv, codec: Codec): (r: (BookResponse, Calendar))
    ensures r.0.Rejected? ==> r.1 == cal
    ensures r.0.Rejected? ==>
              (r.0.status == 400 && r.0.error.code == INVALID_INPUT)
              || (r.0.status == 409 && r.0.error.code == SLOT_TAKEN)
              || (r.0.status == 500 && r.0.error.code == INTERNAL_ERROR)
    ensures body.None? ==> r.0 == CREATE_FAILED
    ensures body.Some? && ValidateBookingForm(body.value, fc).Failure? ==>
              r.0 == Rejected(400, BookingError(INVALID_INPUT, SchemaMessage(ValidateBookingForm(body.value, fc).error)))
    ensures RequestedStart(body, fc).Some? && IsBookingTimeValid(RequestedStart(body, fc).value, now).Refused? ==>
              r.0 == Rejected(400, BookingError(INVALID_INPUT,
                                    PolicyMessage(IsBookingTimeValid(RequestedStart(body, fc).value, now).reason)))
    ensures RequestedStart(body, fc).Some? && InBookingWindow(RequestedStart(body, fc).value, now) && !link.Up? ==>
              r.0 == CREATE_FAILED
    ensures RequestedStart(body, fc).Some? && InBookingWindow(RequestedStart(body, fc).value, now) && link.Up?
            && !SlotClear(cal, RequestedStart(body, fc).value) ==>
              r.0 == Rejected(409, BookingError(SLOT_TAKEN, SlotJustTaken))
    ensures r.0.Booked? <==>
              && RequestedStart(body, fc).Some?
              && InBookingWindow(RequestedStart(body, fc).value, now)
              && link.Up?
              && SlotClear(cal, RequestedStart(body, fc).value)
    ensures r.0.Booked? ==>
              var start := RequestedStart(body, fc).value;
              && |r.1| == |cal| + 1 && r.1[..|cal|] == cal
              && r.1[|cal|].start == start && r.1[|cal|].end == start + LESSON_MS
              && r.1[|cal|].eventId == r.0.eventId == env.newEventId
              && r.0.bookingId == BookingIds.GenerateBookingId(env.utcDate, env.random36)
  {
    if body.None? then (CREATE_FAILED, cal)
    else
      match ValidateBookingForm(body.value, fc)
      case Failure(issue) => (Rejected(400, BookingError(INVALID_INPUT, SchemaMessage(issue))), cal)
      case Success(req) =>
        var start := req.startTime;
        var end := LessonEnd(start);
        match IsBookingTimeValid(start, now)
        case Refused(reason) => (Rejected(400, BookingError(INVALID_INPUT, PolicyMessage(reason))), cal)
        case Allowed =>
          match CheckSlotAvailability(link, cal, start, end)
          case Failure(_) => (CREATE_FAILED, cal)
          case Success(false) => (Rejected(409, BookingError(SLOT_TAKEN, SlotJustTaken)), cal)
          case Success(true) =>
            var info := BookingInfo(req.studentName, req.studentEmail, req.studentTimezone, req.note);
            match CreateBookingEvent(link, cal, start, end, info, env, codec)
            case Failure(_) => (CREATE_FAILED, cal)
            case Success((cal', created)) => (Booked(created.bookingId, created.eventId), cal')
  }

  /** No two events come within the buffer of each other. */
  predicate Separated(cal: Calendar) {
    forall i, j :: 0 <= i < |cal| && 0 <= j < |cal| && i != j ==>
      cal[i].end + BUFFER_MS <= cal[j].start || cal[j].end + BUFFER_MS <= cal[i].start
  }

  /**
   * Sequential creates keep the calendar's events apart by the buffer: the
   * new lesson never comes within ten minutes of an existing event.
   */
  lemma PostPreservesSeparation(body: Option<JsonBody>, fc: FormatCheckers, now: Instant,
                                link: Link, cal: Calendar, env: CreationEnv, codec: Codec)
    requires Separated(cal)
    ensures Separated(Post(body, fc, now, link, cal, env, codec).1)
  {
    var r := Post(body, fc, now, link, cal, env, codec);
    if r.0.Booked? {
      var cal' := r.1;
      var start := RequestedStart(body, fc).value;
      forall i | 0 <= i < |cal| ensures cal'[i] == cal[i] {
        assert cal'[..|cal|][i] == cal[i];
      }
      forall i | 0 <= i < |cal|
        ensures cal'[i].end + BUFFER_MS <= cal'[|cal|].start || cal'[|cal|].end + BUFFER_MS <= cal'[i].start
      {
        assert !Overlaps(cal[i], start - BUFFER_MS, LessonEnd(start) + BUFFER_MS);
      }
    }
  }

  /**
   * Once a booking at `start` is in the calendar, a second request for any
   * start less than an hour (lesson plus buffer) away fails: as SLOT_TAKEN
   * when it gets as far as the re-check, and in any case without a new event.
   */
  lemma SecondBookingOfSlotFails(body1: Option<JsonBody>, body2: Option<JsonBody>, fc: FormatCheckers,
                                 now1: Instant, now2: Instant, cal: Calendar,
                                 env1: CreationEnv, env2: CreationEnv, codec: Codec)
    requires Post(body1, fc, now1, Up, cal, env1, codec).0.Booked?
    requires RequestedStart(body2, fc).Some?
    requires var s1, s2 := RequestedStart(body1, fc).value, RequestedStart(body2, fc).value;
             s1 - (LESSON_MS + BUFFER_MS) < s2 < s1 + LESSON_MS + BUFFER_MS
    ensures var cal' := Post(body1, fc, now1, Up, cal, env1, codec).1;
            var r := Post(body2, fc, now2, Up, cal', env2, codec);
            && r.0.Rejected? && r.1 == cal'
            && (InBookingWindow(RequestedStart(body2, fc).value, now2) ==>
                  r.0 == Rejected(409, BookingError(SLOT_TAKEN, SlotJustTaken)))
  {
    var cal' := Post(body1, fc, now1, Up, cal, env1, codec).1;
    var s2 := RequestedStart(body2, fc).value;
    assert Overlaps(cal'[|cal|], s2 - BUFFER_MS, LessonEnd(s2) + BUFFER_MS);
  }

  /**
   * What a successful create wrote reads back: the new event's metadata is
   * the fresh record of the validated form, modification count 0, under the
   * booking ID returned.
   */
  lemma BookedMetadataReadsBack(body: Option<JsonBody>, fc: FormatCheckers, now: Instant,
                                cal: Calendar, env: CreationEnv, codec: Codec)
    requires Post(body, fc, now, Up, cal, env, codec).0.Booked?
    requires var req := ValidateBookingForm(body.value, fc).value;
             var info := BookingInfo(req.studentName, req.studentEmail, req.studentTimezone, req.note);
             var m := NewMetadata(BookingIds.GenerateBookingId(env.utcDate, env.random36), info, env.createdAt);
             |codec.stringify(m)| > 0 && SingleLine(codec.stringify(m)) && RoundTrips(codec, m)
    ensures var r := Post(body, fc, now, Up, cal, env, codec);
            var m := ExtractBookingMetadata(r.1[|cal|].description, codec);
            && m.Some?
            && m.value.modificationCount == 0
            && m.value.bookingId == r.0.bookingId
            && m.value.studentEmail == body.value.form.studentEmail.text
            && m.value.studentName == body.value.form.studentName.text
            && var req := ValidateBookingForm(body.value, fc).value;
               m == Some(NewMetadata(r.0.bookingId, BookingInfo(req.studentName, req.studentEmail, req.studentTimezone, req.note),
                                     env.createdAt))
  {
    var req := ValidateBookingForm(body.value, fc).value;
    var info := BookingInfo(req.studentName, req.studentEmail, req.studentTimezone, req.note);
    CreatedEventMetadata(Up, cal, req.startTime, LessonEnd(req.startTime), info, env, codec);
  }
}

=== FILE: booking_id.dfy ===
/**
 * The booking-ID builder of lib/google-calendar.ts: the prefix, the UTC
 * creation date with its dashes removed, and six characters of a random
 * number written in base 36, upper-cased. The date and the base-36 text of
 * the random number are parameters.
 */
module BookingIds {
  import opened Config
  import Schemas

  /** A calendar date in UTC, as the date-time's ISO rendering shows it. */
  datatype UtcDate = UtcDate(year: int, month: int, day: int)

  function DigitChar(d: int): (c: char)
    requires 0 <= d < 10
    ensures Schemas.IsAsciiDigit(c)
  {
    ('0' as int + d) as char
  }

  /** The last `width` decimal digits of `n`, zero-padded on the left. */
  function Digits(n: nat, width: nat): (s: string)
    ensures |s| == width
    ensures forall i :: 0 <= i < |s| ==> Schemas.IsAsciiDigit(s[i])
  {
    if width == 0 then "" else Digits(n / 10, width - 1) + [DigitChar(n % 10)]
  }

  function Pow10(k: nat): (p: nat)
    ensures p >= 1
  {
    if k == 0 then 1 else 10 * Pow10(k - 1)
  }

  /** The number a string of decimal digits denotes. */
  function DigitsValue(s: string): nat
    requires forall i :: 0 <= i < |s| ==> Schemas.IsAsciiDigit(s[i])
  {
    if |s| == 0 then 0
    else
      var last := s[|s| - 1];
      assert Schemas.IsAsciiDigit(last);
      10 * DigitsValue(s[..|s| - 1]) + (last as int - '0' as int)
  }

  /** Zero-padding loses nothing: a number below 10^width reads back from its digits. */
  lemma {:induction false} DigitsRoundTrip(n: nat, width: nat)
    requires n < Pow10(width)
    ensures DigitsValue(Digits(n, width)) == n
  {
    if width > 0 {
      var s := Digits(n, width);
      assert s[..|s| - 1] == Digits(n / 10, width - 1);
      DigitsRoundTrip(n / 10, width - 1);
    }
  }

  function Abs(n: int): nat {
    if n < 0 then -n else n
  }

  /**
   * The first ten characters of the ISO rendering of an instant on `d`:
   * `YYYY-MM-DD` for years 0..9999, otherwise the expanded form `±YYYYYY-MM`.
   */
  function IsoDatePrefix(d: UtcDate): (s: string)
    ensures |s| == 10
  {
    if 0 <= d.year <= 9999 then
      Digits(d.year, 4) + "-" + Digits(Abs(d.month), 2) + "-" + Digits(Abs(d.day), 2)
    else
      (if d.year < 0 then "-" else "+") + Digits(Abs(d.year), 6) + "-" + Digits(Abs(d.month), 2)
  }

  /** Every occurrence of `c` removed. */
  function RemoveAll(s: string, c: char): (r: string)
    ensures |r| <= |s|
    ensures forall i :: 0 <= i < |r| ==> r[i] != c
    ensures forall x :: x in r <==> x in s && x != c
  {
    if |s| == 0 then ""
    else if s[0] == c then RemoveAll(s[1..], c)
    else [s[0]] + RemoveAll(s[1..], c)
  }

  /** The creation date as the ID shows it: the ISO date with its dashes removed. */
  function DateStamp(d: UtcDate): string {
    RemoveAll(IsoDatePrefix(d), '-')
  }

  lemma RemoveAllDistributes(a: string, b: string, c: char)
    ensures RemoveAll(a + b, c) == RemoveAll(a, c) + RemoveAll(b, c)
  {
    if |a| > 0 {
      assert (a + b)[1..] == a[1..] + b;
    } else {
      assert a + b == b;
    }
  }

  lemma RemoveAllAbsent(a: string, c: char)
    requires c !in a
    ensures RemoveAll(a, c) == a
  {
  }

  /** A string of decimal digits contains no dash. */
  lemma NoDashInDigits(s: string)
    requires forall i :: 0 <= i < |s| ==> Schemas.IsAsciiDigit(s[i])
    ensures RemoveAll(s, '-') == s
  {
    RemoveAllAbsent(s, '-');
  }

  /** For years 0..9999 the stamp is the four year digits, then month and day. */
  lemma DateStampOfFourDigitYear(d: UtcDate)
    requires 0 <= d.year <= 9999
    ensures DateStamp(d) == Digits(d.year, 4) + Digits(Abs(d.month), 2) + Digits(Abs(d.day), 2)
  {
    var y, m, dd := Digits(d.year, 4), Digits(Abs(d.month), 2), Digits(Abs(d.day), 2);
    var s1 := y + "-";
    var s2 := s1 + m;
    var s3 := s2 + "-";
    assert IsoDatePrefix(d) == s3 + dd;
    NoDashInDigits(y);
    NoDashInDigits(m);
    NoDashInDigits(dd);
    assert RemoveAll("-", '-') == "";
    RemoveAllDistributes(s3, dd, '-');
    RemoveAllDistributes(s2, "-", '-');
    RemoveAllDistributes(s1, m, '-');
    RemoveAllDistributes(y, "-", '-');
  }

  /** For other years the stamp is six year digits and the month, behind a plus sign for years past 9999. */
  lemma DateStampOfExpandedYear(d: UtcDate)
    requires !(0 <= d.year <= 9999)
    ensures DateStamp(d) == (if d.year < 0 then "" else "+") + Digits(Abs(d.year), 6) + Digits(Abs(d.month), 2)
  {
    var sign := if d.year < 0 then "-" else "+";
    var y6, m := Digits(Abs(d.year), 6), Digits(Abs(d.month), 2);
    var s1 := sign + y6;
    var s2 := s1 + "-";
    assert IsoDatePrefix(d) == s2 + m;
    NoDashInDigits(y6);
    NoDashInDigits(m);
    assert RemoveAll("-", '-') == "";
    RemoveAllDistributes(s2, m, '-');
    RemoveAllDistributes(s1, "-", '-');
    RemoveAllDistributes(sign, y6, '-');
  }

  /**
   * The date stamp is eight decimal digits exactly when the year is at most
   * 9999: a negative year loses its minus sign with the dashes, a year past
   * 9999 keeps its plus sign.
   */
  lemma DateStampDigits(d: UtcDate)
    ensures d.year <= 9999 ==>
              |DateStamp(d)| == 8 && forall i :: 0 <= i < 8 ==> Schemas.IsAsciiDigit(DateStamp(d)[i])
    ensures 9999 < d.year ==> DateStamp(d)[0] == '+' && |DateStamp(d)| == 9
  {
    if 0 <= d.year <= 9999 {
      DateStampOfFourDigitYear(d);
    } else {
      DateStampOfExpandedYear(d);
    }
  }

  /** String.prototype.substring with non-negative arguments: both clamped to the length, then ordered. */
  function JsSubstring(s: string, a: nat, b: nat): (r: string)
    ensures |r| <= |s|
  {
    var lo := if a < |s| then a else |s|;
    var hi := if b < |s| then b else |s|;
    if lo <= hi then s[lo..hi] else s[hi..lo]
  }

  /** toUpperCase on the characters a base-36 rendering can contain. */
  function UpperAscii(s: string): (r: string)
    ensures |r| == |s|
    ensures forall i :: 0 <= i < |s| ==>
              r[i] == (if 'a' <= s[i] <= 'z' then (s[i] as int - 32) as char else s[i])
  {
    if |s| == 0 then "" else
      [if 'a' <= s[0] <= 'z' then (s[0] as int - 32) as char else s[0]] + UpperAscii(s[1..])
  }

  /** Characters 2..8 of the random number's base-36 text, upper-cased. */
  function RandomSuffix(random36: string): (r: string)
    ensures |r| == (if |random36| <= 2 then 0 else if |random36| >= 8 then 6 else |random36| - 2)
  {
    UpperAscii(JsSubstring(random36, 2, 8))
  }

  /** generateBookingId, with the UTC date and the base-36 text of Math.random() as parameters. */
  function GenerateBookingId(date: UtcDate, random36: string): (id: string)
    ensures |id| >= 5 && id[..4] == BOOKING_ID_PREFIX + "-"
  {
    BOOKING_ID_PREFIX + "-" + DateStamp(date) + "-" + RandomSuffix(random36)
  }

  predicate IsBase36Digit(c: char) {
    '0' <= c <= '9' || 'a' <= c <= 'z'
  }

  /** The shape of Number.prototype.toString(36) for a number in [0, 1): "0" or "0." and its digits. */
  predicate IsRandomBase36(r: string) {
    r == "0" || (|r| >= 3 && r[..2] == "0." && forall i :: 2 <= i < |r| ==> IsBase36Digit(r[i]))
  }

  /**
   * A generated ID passes the query pattern exactly when the date stamp is
   * eight digits and the random number has at least six base-36 digits.
   */
  lemma GeneratedIdMatchesPattern(date: UtcDate, random36: string)
    requires IsRandomBase36(random36)
    ensures Schemas.IsBookingIdFormat(GenerateBookingId(date, random36)) <==>
              date.year <= 9999 && |random36| >= 8
  {
    var stamp, suffix := DateStamp(date), RandomSuffix(random36);
    Schemas.BookingIdFormatShape(stamp, suffix);
    DateStampDigits(date);
    RandomSuffixShape(random36);
    if 9999 < date.year {
      assert |stamp| != 8;
    }
  }

  /** The suffix has six characters exactly when the rendering has six digits, and those are upper-case alphanumerics. */
  lemma RandomSuffixShape(random36: string)
    requires IsRandomBase36(random36)
    ensures |RandomSuffix(random36)| == 6 <==> |random36| >= 8
    ensures |random36| >= 8 ==> forall i :: 0 <= i < 6 ==> Schemas.IsUpperAlnum(RandomSuffix(random36)[i])
  {
    if |random36| >= 8 {
      var suffix := RandomSuffix(random36);
      forall i | 0 <= i < 6 ensures Schemas.IsUpperAlnum(suffix[i]) {
        assert suffix[i] == UpperAscii(random36[2..8])[i];
        assert IsBase36Digit(random36[2 + i]);
      }
    }
  }

  /**
   * Math.random() == 0.5 renders as "0.i": the ID gets a one-character suffix
   * and the query pattern rejects it, so that booking cannot be looked up.
   */
  lemma ShortRandomGivesUnqueryableId()
    ensures GenerateBookingId(UtcDate(2024, 1, 1), "0.i") == "MZK-20240101-I"
    ensures !Schemas.IsBookingIdFormat(GenerateBookingId(UtcDate(2024, 1, 1), "0.i"))
  {
    ShortRandomIdText();
    GeneratedIdMatchesPattern(UtcDate(2024, 1, 1), "0.i");
  }

  /** The ID text for 1 January 2024 and the random rendering "0.i". */
  lemma ShortRandomIdText()
    ensures GenerateBookingId(UtcDate(2024, 1, 1), "0.i") == "MZK-20240101-I"
  {
    YearDigits2024();
    TwoDigitsOfOne();
    SuffixOfHalf();
    IdTextOf(UtcDate(2024, 1, 1), "0.i");
    assert Abs(1) == 1;
    assert GenerateBookingId(UtcDate(2024, 1, 1), "0.i") == "MZK" + "-" + "2024" + "01" + "01" + "-" + "I";
  }

  /** The ID assembled from its year, month and day digits and its suffix. */
  lemma IdTextOf(d: UtcDate, random36: string)
    requires 0 <= d.year <= 9999
    ensures GenerateBookingId(d, random36) ==
              BOOKING_ID_PREFIX + "-" + Digits(d.year, 4) + Digits(Abs(d.month), 2) + Digits(Abs(d.day), 2)
              + "-" + RandomSuffix(random36)
  {
    DateStampOfFourDigitYear(d);
  }

  lemma YearDigits2024()
    ensures Digits(2024, 4) == "2024"
  {
    assert Digits(2, 1) == "2";
    assert Digits(20, 2) == "20";
    assert Digits(202, 3) == "202";
  }

  lemma TwoDigitsOfOne()
    ensures Digits(1, 2) == "01"
  {
    assert Digits(0, 1) == "0";
  }

  lemma SuffixOfHalf()
    ensures RandomSuffix("0.i") == "I"
  {
    assert JsSubstring("0.i", 2, 8) == "i";
  }
}

=== FILE: calendar.dfy ===
/**
 * The calendar adapter of lib/google-calendar.ts over an abstract remote
 * calendar: the busy-time query, the availability re-check, event creation
 * with its booking ID and metadata, and the time update that counts a
 * modification. The remote calendar is a sequence of events; whether it can
 * be reached is a parameter.
 */
module CalendarAdapter {
  import opened Wrappers
  import opened Config
  import opened Metadata
  import BookingIds

  datatype Interval = Interval(start: Instant, end: Instant)

  /** A calendar event; every event occupies its interval. */
  datatype Event = Event(eventId: string, start: Instant, end: Instant, description: Option<string>)

  type Calendar = seq<Event>

  /** Whether the remote calendar can be used: configured and reachable, unreachable, or with no calendar ID set. */
  datatype Link = Up | Down | Unconfigured

  datatype RemoteFailure = CalendarIdMissing | TransportError | EventNotFound

  /** The event's interval meets the half-open window [lo, hi). */
  predicate Overlaps(e: Event, lo: Instant, hi: Instant) {
    e.start < hi && lo < e.end
  }

  /** The free/busy answer for [lo, hi): the intervals of the events meeting that window, in calendar order. */
  function QueryBusy(cal: Calendar, lo: Instant, hi: Instant): (r: seq<Interval>)
    ensures forall k :: 0 <= k < |r| ==> r[k].start < hi && lo < r[k].end
    ensures forall i :: 0 <= i < |cal| && Overlaps(cal[i], lo, hi) ==> Interval(cal[i].start, cal[i].end) in r
    ensures |r| == 0 <==> forall i :: 0 <= i < |cal| ==> !Overlaps(cal[i], lo, hi)
  {
    if |cal| == 0 then []
    else
      var rest := QueryBusy(cal[1..], lo, hi);
      assert forall i :: 1 <= i < |cal| ==> cal[i] == cal[1..][i - 1];
      if Overlaps(cal[0], lo, hi) then [Interval(cal[0].start, cal[0].end)] + rest else rest
  }

  /** getBusySlots: fails when no calendar is configured or the remote cannot be reached. */
  function GetBusySlots(link: Link, cal: Calendar, lo: Instant, hi: Instant): (r: Result<seq<Interval>, RemoteFailure>)
    ensures link.Unconfigured? ==> r == Failure(CalendarIdMissing)
    ensures link.Down? ==> r == Failure(TransportError)
    ensures link.Up? ==> r == Success(QueryBusy(cal, lo, hi))
  {
    match link
    case Unconfigured => Failure(CalendarIdMissing)
    case Down => Failure(TransportError)
    case Up => Success(QueryBusy(cal, lo, hi))
  }

  /**
   * checkSlotAvailability: the slot is free when no event meets the lesson
   * widened by the buffer on both sides.
   */
  function CheckSlotAvailability(link: Link, cal: Calendar, start: Instant, end: Instant): (r: Result<bool, RemoteFailure>)
    ensures r.Success? <==> link.Up?
    ensures r.Success? ==>
              (r.value <==> forall i :: 0 <= i < |cal| ==> !Overlaps(cal[i], start - BUFFER_MS, end + BUFFER_MS))
  {
    match GetBusySlots(link, cal, start - BUFFER_MS, end + BUFFER_MS)
    case Failure(f) => Failure(f)
    case Success(busy) => Success(|busy| == 0)
  }

  /** What the adapter cannot compute: the clock, the randomness and the identifier the remote assigns. */
  datatype CreationEnv = CreationEnv(
    utcDate: BookingIds.UtcDate,   // today's date in UTC
    random36: string,              // Math.random() written in base 36
    createdAt: string,             // the creation instant, ISO-formatted
    newEventId: string)            // the identifier the remote gives the new event

  datatype Created = Created(eventId: string, bookingId: string)

  /** The event createBookingEvent inserts for `bookingId`. */
  function BookingEvent(start: Instant, end: Instant, info: BookingInfo, bookingId: string,
                        env: CreationEnv, codec: Codec): Event
  {
    var metadata := NewMetadata(bookingId, info, env.createdAt);
    Event(env.newEventId, start, end,
          Some(Description(info.studentName, info.studentEmail, bookingId, NoteOr(info.note, "なし"),
                           codec.stringify(metadata))))
  }

  /**
   * createBookingEvent: appends exactly one event at [start, end) and answers
   * with the remote's event identifier and the freshly generated booking ID.
   */
  function CreateBookingEvent(link: Link, cal: Calendar, start: Instant, end: Instant, info: BookingInfo,
                              env: CreationEnv, codec: Codec): (r: Result<(Calendar, Created), RemoteFailure>)
    ensures r.Success? <==> link.Up?
    ensures r.Success? ==>
              var (cal', created) := r.value;
              && |cal'| == |cal| + 1 && cal'[..|cal|] == cal
              && cal'[|cal|].start == start && cal'[|cal|].end == end
              && cal'[|cal|].eventId == env.newEventId == created.eventId
              && created.bookingId == BookingIds.GenerateBookingId(env.utcDate, env.random36)
  {
    if link.Unconfigured? then Failure(CalendarIdMissing)
    else
      var bookingId := BookingIds.GenerateBookingId(env.utcDate, env.random36);
      if link.Down? then Failure(TransportError)
      else
        var cal' := cal + [BookingEvent(start, end, info, bookingId, env, codec)];
        assert cal'[..|cal|] == cal;
        Success((cal', Created(env.newEventId, bookingId)))
  }

  /**
   * The metadata read back from a freshly created event is the fresh record:
   * the student's name, e-mail and zone, the note or "", modification count
   * 0, and the booking ID the creation answered with.
   */
  lemma CreatedEventMetadata(link: Link, cal: Calendar, start: Instant, end: Instant, info: BookingInfo,
                             env: CreationEnv, codec: Codec)
    requires link.Up?
    requires var id := BookingIds.GenerateBookingId(env.utcDate, env.random36);
             var json := codec.stringify(NewMetadata(id, info, env.createdAt));
             |json| > 0 && SingleLine(json) && RoundTrips(codec, NewMetadata(id, info, env.createdAt))
    ensures var r := CreateBookingEvent(link, cal, start, end, info, env, codec);
            r.Success? &&
            var m := ExtractBookingMetadata(r.value.0[|cal|].description, codec);
            && m.Some?
            && m.value.modificationCount == 0
            && m.value.bookingId == r.value.1.bookingId
            && m.value.studentEmail == info.studentEmail
            && m.value.createdAt == env.createdAt
            && m == Some(NewMetadata(r.value.1.bookingId, info, env.createdAt))
  {
    var id := BookingIds.GenerateBookingId(env.utcDate, env.random36);
    var metadata := NewMetadata(id, info, env.createdAt);
    ExtractFromDescription(info.studentName, info.studentEmail, id, NoteOr(info.note, "なし"),
                           codec.stringify(metadata));
  }

  /** events.patch: every event with the identifier gets the new interval and description. */
  function PatchEvent(cal: Calendar, eventId: string, start: Instant, end: Instant, description: string): (r: Calendar)
    ensures |r| == |cal|
    ensures forall i :: 0 <= i < |cal| && cal[i].eventId != eventId ==> r[i] == cal[i]
    ensures forall i :: 0 <= i < |cal| && cal[i].eventId == eventId ==>
              r[i] == Event(eventId, start, end, Some(description))
  {
    seq(|cal|, i requires 0 <= i < |cal| =>
      if cal[i].eventId == eventId then Event(eventId, start, end, Some(description)) else cal[i])
  }

  predicate HasEvent(cal: Calendar, eventId: string) {
    exists i :: 0 <= i < |cal| && cal[i].eventId == eventId
  }

  /** The description updateBookingTime writes: the summary from the current record, the bumped record's JSON. */
  function UpdatedDescription(current: BookingMetadata, modifiedAt: string, codec: Codec): string {
    Description(current.studentName, current.studentEmail, current.bookingId,
                NoteOr(Some(current.note), "なし"), codec.stringify(BumpModification(current, modifiedAt)))
  }

  /**
   * updateBookingTime: with no metadata it answers false and writes nothing
   * (after the calendar ID is read); otherwise the patch either throws (remote
   * down, or no event with the identifier) or moves the event, writes the
   * metadata with the count one higher, and answers true.
   */
  function UpdateBookingTime(link: Link, cal: Calendar, eventId: string, newStart: Instant, newEnd: Instant,
                             current: Option<BookingMetadata>, modifiedAt: string, codec: Codec)
    : (r: Result<(bool, Calendar), RemoteFailure>)
    ensures link.Unconfigured? ==> r == Failure(CalendarIdMissing)
    ensures !link.Unconfigured? && current.None? ==> r == Success((false, cal))
    ensures r.Success? && r.value.0 ==> link.Up? && current.Some? && HasEvent(cal, eventId)
    ensures r.Success? ==> |r.value.1| == |cal|
    ensures r.Success? ==> forall i :: 0 <= i < |cal| && cal[i].eventId != eventId ==> r.value.1[i] == cal[i]
    ensures r.Success? && r.value.0 ==> forall i :: 0 <= i < |cal| && cal[i].eventId == eventId ==>
              && r.value.1[i].start == newStart && r.value.1[i].end == newEnd
              && r.value.1[i].description == Some(UpdatedDescription(current.value, modifiedAt, codec))
    ensures !link.Unconfigured? && current.Some? ==> (r.Success? <==> link.Up? && HasEvent(cal, eventId))
    ensures r.Success? && current.Some? ==> r.value.0
    ensures link.Down? && current.Some? ==> r == Failure(TransportError)
    ensures link.Up? && current.Some? && !HasEvent(cal, eventId) ==> r == Failure(EventNotFound)
  {
    if link.Unconfigured? then Failure(CalendarIdMissing)
    else if current.None? then Success((false, cal))
    else if link.Down? then Failure(TransportError)
    else if !HasEvent(cal, eventId) then Failure(EventNotFound)
    else Success((true, PatchEvent(cal, eventId, newStart, newEnd, UpdatedDescription(current.value, modifiedAt, codec))))
  }

  /**
   * After a successful update the moved event's metadata reads back as the
   * current record with the modification count one higher and every other
   * student field kept.
   */
  lemma UpdateCountsModification(cal: Calendar, eventId: string, newStart: Instant, newEnd: Instant,
                                 current: BookingMetadata, modifiedAt: string, codec: Codec, i: nat)
    requires i < |cal| && cal[i].eventId == eventId
    requires var json := codec.stringify(BumpModification(current, modifiedAt));
             |json| > 0 && SingleLine(json) && RoundTrips(codec, BumpModification(current, modifiedAt))
    ensures var r := UpdateBookingTime(Up, cal, eventId, newStart, newEnd, Some(current), modifiedAt, codec);
            r == Success((true, r.value.1)) &&
            var m := ExtractBookingMetadata(r.value.1[i].description, codec);
            && m.Some?
            && m.value.modificationCount == current.modificationCount + 1
            && m.value.(modificationCount := current.modificationCount, lastModifiedAt := current.lastModifiedAt) == current
  {
    var bumped := BumpModification(current, modifiedAt);
    ExtractFromDescription(current.studentName, current.studentEmail, current.bookingId,
                           NoteOr(Some(current.note), "なし"), codec.stringify(bumped));
  }
}

=== FILE: config.dfy ===
/**
 * The fixed numbers of the booking system (lib/constants.ts).
 * Instants are integer milliseconds since the Unix epoch.
 */
module Config {

  /** An absolute instant, in milliseconds since 1970-01-01T00:00Z. */
  type Instant = int

  const MS_PER_MINUTE: int := 60_000
  const MS_PER_HOUR: int := 60 * MS_PER_MINUTE
  const MS_PER_DAY: int := 24 * MS_PER_HOUR

  /** The teacher's zone, Asia/Tokyo, is UTC+9 all year (no daylight saving). */
  const TEACHER_TIMEZONE: string := "Asia/Tokyo"
  const TEACHER_UTC_OFFSET_MS: int := 9 * MS_PER_HOUR
  const DEFAULT_STUDENT_TIMEZONE: string := "Asia/Taipei"

  const LESSON_DURATION_MINUTES: int := 50
  const BUFFER_TIME_MINUTES: int := 10

  /** Working hours of the teacher, in whole hours of the teacher's zone. */
  const WORKING_HOURS_START: int := 9
  const WORKING_HOURS_END: int := 21

  const CANCEL_DEADLINE_HOURS: int := 24
  const MODIFY_DEADLINE_HOURS: int := 24
  const MAX_MODIFICATIONS: int := 2
  const ADVANCE_BOOKING_DAYS: int := 30
  const MIN_ADVANCE_BOOKING_HOURS: int := 24

  const BOOKING_ID_PREFIX: string := "MZK"

  /** Declared spacing of generated slots; the generator itself steps by whole hours. */
  const SLOT_INTERVAL_MINUTES: int := 60

  const LESSON_MS: int := LESSON_DURATION_MINUTES * MS_PER_MINUTE
  const BUFFER_MS: int := BUFFER_TIME_MINUTES * MS_PER_MINUTE

  /** The working window is a non-empty range of hours inside one day. */
  lemma WorkingHoursWellFormed()
    ensures 0 <= WORKING_HOURS_START < WORKING_HOURS_END <= 24
  {
  }

  /** A lesson plus its trailing buffer fills exactly one slot interval, and one hour. */
  lemma LessonPlusBufferIsSlotInterval()
    ensures LESSON_DURATION_MINUTES + BUFFER_TIME_MINUTES == SLOT_INTERVAL_MINUTES
    ensures LESSON_MS + BUFFER_MS == MS_PER_HOUR
    ensures 0 < LESSON_MS < MS_PER_HOUR
  {
  }

  /** The booking window [now + 24h, now + 30 days] is non-empty. */
  lemma BookingWindowNonEmpty()
    ensures MIN_ADVANCE_BOOKING_HOURS * MS_PER_HOUR < ADVANCE_BOOKING_DAYS * MS_PER_DAY
  {
  }

  /** Both deadlines are a day before the lesson and two modifications are allowed. */
  lemma DeadlinesAndLimit()
    ensures CANCEL_DEADLINE_HOURS == MODIFY_DEADLINE_HOURS == 24
    ensures MAX_MODIFICATIONS == 2
  {
  }
}

=== FILE: errors.dfy ===
/**
 * The error taxonomy of lib/booking.ts and the error value every route
 * returns. A message is represented by what it reports, not by its text.
 */
module Errors {
  import Policy
  import Schemas

  datatype BookingErrorCode =
    | INVALID_INPUT
    | SLOT_TAKEN
    | BOOKING_NOT_FOUND
    | EMAIL_MISMATCH
    | CANNOT_CANCEL
    | CANNOT_MODIFY
    | INTERNAL_ERROR

  /** The user-facing message of an error. */
  datatype Message =
    | PolicyMessage(reason: Policy.Reason)   // the message of a refused policy check
    | SchemaMessage(issue: Schemas.Issue)    // the message of the first schema issue
    | DateMissing                            // no date parameter given
    | DateUnparsable                         // the date parameter is not an ISO date
    | SlotJustTaken                          // the re-check found the slot busy
    | CreateFailed                           // an exception while creating a booking
    | SlotsFetchFailed                       // an exception while listing slots

  /** createBookingError's result: a code paired with its message. */
  datatype BookingError = BookingError(code: BookingErrorCode, message: Message)

}

=== FILE: flow.dfy ===
/**
 * Properties that span the two endpoints: what a create does to the next
 * listing, and the booking-window scenario of a fixed clock.
 */
module BookingFlow {
  import opened Wrappers
  import opened Config
  import opened Schemas
  import opened Policy
  import opened Metadata
  import opened CalendarAdapter
  import opened SlotGenerator
  import opened BookRoute
  import opened SlotsRoute

  /** Once a working-hour slot is booked, the listing for its day no longer offers it. */
  lemma BookedSlotLeavesListing(body: Option<JsonBody>, fc: FormatCheckers, now: Instant,
                                cal: Calendar, env: CreationEnv, codec: Codec,
                                dateParam: Option<string>, timezoneParam: Option<string>,
                                parseDay: string -> Option<int>, zoneKnown: string -> bool, generatorNow: Instant, listNow: Instant, hour: int)
    requires Post(body, fc, now, Up, cal, env, codec).0.Booked?
    requires dateParam.Some? && dateParam.value != "" && parseDay(dateParam.value).Some?
    requires zoneKnown(SlotsRoute.StudentTimezone(timezoneParam))
    requires WORKING_HOURS_START <= hour < WORKING_HOURS_END
    requires RequestedStart(body, fc).value == CandidateStart(parseDay(dateParam.value).value, hour)
    ensures var cal' := Post(body, fc, now, Up, cal, env, codec).1;
            var r := Get(dateParam, timezoneParam, parseDay, zoneKnown, Up, cal', generatorNow, listNow);
            r.Listed? && SlotAt(parseDay(dateParam.value).value, hour) !in r.slots
  {
    var cal' := Post(body, fc, now, Up, cal, env, codec).1;
    var day := parseDay(dateParam.value).value;
    ListedSlots(dateParam, timezoneParam, parseDay, zoneKnown, cal', generatorNow, listNow);
    var all := AllIntervals(cal');
    assert all[|cal|] == Interval(cal'[|cal|].start, cal'[|cal|].end);
    assert !IsFree(CandidateStart(day, hour), all);
  }

  /** 2024-01-01T00:00Z in milliseconds. */
  const NEW_YEAR_2024: Instant := 1_704_067_200_000

  /**
   * The create handler's re-check is at least as strict as the listing: a
   * start it accepts is clear of every event's interval in the generator's
   * sense.
   */
  lemma RecheckStricterThanListing(cal: Calendar, start: Instant)
    requires CheckSlotAvailability(Up, cal, start, LessonEnd(start)) == Success(true)
    ensures IsFree(start, AllIntervals(cal))
  {
    var all := AllIntervals(cal);
    forall k | 0 <= k < |all| ensures !(start < all[k].end && start + LESSON_MS + BUFFER_MS > all[k].start) {
      assert !Overlaps(cal[k], start - BUFFER_MS, LessonEnd(start) + BUFFER_MS);
    }
  }

  /**
   * The converse fails: the listing pads only after a slot, the re-check on
   * both sides, so an event ending within the buffer before a listed slot
   * lets the slot be listed and then has the create refused as taken.
   */
  lemma ListedButRefused(day: int, hour: int, e: Event, generatorNow: Instant)
    requires WORKING_HOURS_START <= hour < WORKING_HOURS_END
    requires generatorNow < CandidateStart(day, hour)
    requires CandidateStart(day, hour) - BUFFER_MS < e.end <= CandidateStart(day, hour)
    requires e.start < e.end
    ensures SlotAt(day, hour) in GetAvailableSlots(day, AllIntervals([e]), generatorNow)
    ensures CheckSlotAvailability(Up, [e], CandidateStart(day, hour), LessonEnd(CandidateStart(day, hour))) == Success(false)
  {
    var s := CandidateStart(day, hour);
    assert IsFree(s, AllIntervals([e]));
    GeneratedSlotsExact(day, AllIntervals([e]), generatorNow);
    assert Overlaps([e][0], s - BUFFER_MS, LessonEnd(s) + BUFFER_MS);
  }

  /**
   * At 2024-01-01T00:00Z: noon the same day is too soon, 2024-02-05T10:00Z is
   * too far, and 2024-01-05T10:00Z is inside the window.
   */
  lemma NewYearScenario()
    ensures IsBookingTimeValid(NEW_YEAR_2024 + 12 * MS_PER_HOUR, NEW_YEAR_2024) == Refused(TooSoon)
    ensures IsBookingTimeValid(NEW_YEAR_2024 + 35 * MS_PER_DAY + 10 * MS_PER_HOUR, NEW_YEAR_2024) == Refused(TooFar)
    ensures IsBookingTimeValid(NEW_YEAR_2024 + 4 * MS_PER_DAY + 10 * MS_PER_HOUR, NEW_YEAR_2024) == Allowed
  {
  }

  /**
   * A booking's record starts at modification count 0 and each update adds
   * one, so after two updates every further modification is refused for the
   * count, however far away the lesson is.
   */
  lemma ModificationLimitAfterUpdates(m: BookingMetadata, stamps: seq<string>, lessonStart: Instant, now: Instant)
    requires m.modificationCount == 0
    ensures |stamps| >= MAX_MODIFICATIONS ==>
              CanModifyBooking(lessonStart, BumpAll(m, stamps).modificationCount, now) == Refused(ModificationLimitReached)
    ensures |stamps| < MAX_MODIFICATIONS ==>
              (CanModifyBooking(lessonStart, BumpAll(m, stamps).modificationCount, now).Allowed?
               <==> CanCancelBooking(lessonStart, now).Allowed?)
  {
    RepeatedBumps(m, stamps);
  }
}

=== FILE: metadata.dfy ===
/**
 * The booking metadata of lib/google-calendar.ts: the record stored as JSON
 * at the end of a calendar event's description behind the marker
 * "METADATA:", the description template, the extraction of the JSON text by
 * the pattern `METADATA:(.+)$`, and the update that counts a modification.
 * JSON.stringify and JSON.parse are the two functions of a `Codec` parameter.
 */
module Metadata {
  import opened Wrappers

  datatype BookingMetadata = BookingMetadata(
    bookingId: string,
    studentName: string,
    studentEmail: string,
    studentTimezone: string,
    note: string,
    createdAt: string,
    modificationCount: int,
    lastModifiedAt: Option<string>)

  /** The student's details as the booking route passes them on. */
  datatype BookingInfo = BookingInfo(
    studentName: string,
    studentEmail: string,
    studentTimezone: string,
    note: Option<string>)

  /** JSON serialisation of the metadata record and JSON parsing back into one. */
  datatype Codec = Codec(stringify: BookingMetadata -> string, parse: string -> Option<BookingMetadata>)

  /** The JSON text of `m` parses back to `m`. */
  predicate RoundTrips(codec: Codec, m: BookingMetadata) {
    codec.parse(codec.stringify(m)) == Some(m)
  }

  const MARKER: string := "METADATA:"

  /** A character the pattern's `.` does not match. */
  predicate IsLineTerminator(c: char) {
    c == '\n' || c == '\r' || c == '\U{2028}' || c == '\U{2029}'
  }

  predicate SingleLine(s: string) {
    forall i :: 0 <= i < |s| ==> !IsLineTerminator(s[i])
  }

  /** `info.note || fallback`: a missing or empty note is replaced. */
  function NoteOr(note: Option<string>, fallback: string): string {
    if note.Some? && note.value != "" then note.value else fallback
  }

  /** The metadata createBookingEvent writes: a fresh record under the new booking ID. */
  function NewMetadata(bookingId: string, info: BookingInfo, createdAt: string): (m: BookingMetadata)
    ensures m.modificationCount == 0 && m.lastModifiedAt.None?
    ensures m.bookingId == bookingId && m.createdAt == createdAt
    ensures m.studentName == info.studentName && m.studentEmail == info.studentEmail
    ensures m.studentTimezone == info.studentTimezone
    ensures m.note == (if info.note.Some? then info.note.value else "")
  {
    BookingMetadata(bookingId, info.studentName, info.studentEmail, info.studentTimezone,
                    NoteOr(info.note, ""), createdAt, 0, None)
  }

  /** The text before the JSON: the human-readable summary, ending in the marker line's start. */
  function DescriptionHead(name: string, email: string, bookingId: string, noteText: string): (h: string)
    ensures |h| >= 5 && h[|h| - 5..] == "\n---\n"
  {
    "📚 予約情報\n\n学生: " + name + "\nEmail: " + email + "\n予約ID: " + bookingId
    + "\n\n備考: " + noteText + "\n\n---\n"
  }

  /** The event description: the summary, then the marker and the JSON text on the last line. */
  function Description(name: string, email: string, bookingId: string, noteText: string, json: string): string {
    DescriptionHead(name, email, bookingId, noteText) + MARKER + json
  }

  /** The pattern `METADATA:(.+)$` matches starting at `i`. */
  predicate MatchesAt(s: string, i: nat) {
    && i + |MARKER| < |s|
    && s[i..i + |MARKER|] == MARKER
    && SingleLine(s[i + |MARKER|..])
  }

  /** The leftmost match at or after `i`, as a regular-expression search finds it. */
  function FindMatch(s: string, i: nat): (r: Option<nat>)
    requires i <= |s|
    decreases |s| - i
    ensures r.Some? ==> i <= r.value && MatchesAt(s, r.value)
    ensures r.Some? ==> forall j :: i <= j < r.value ==> !MatchesAt(s, j)
    ensures r.None? ==> forall j :: i <= j <= |s| ==> !MatchesAt(s, j)
  {
    if i == |s| then None
    else if MatchesAt(s, i) then Some(i)
    else FindMatch(s, i + 1)
  }

  /** The captured JSON text of the leftmost match, if any. */
  function ExtractMetadataText(description: string): (r: Option<string>)
    ensures r.None? <==> forall j :: 0 <= j <= |description| ==> !MatchesAt(description, j)
    ensures r.Some? ==> |r.value| > 0 && SingleLine(r.value)
    ensures r.Some? ==>
              exists i :: 0 <= i <= |description| && MatchesAt(description, i)
                && (forall j :: 0 <= j < i ==> !MatchesAt(description, j))
                && r.value == description[i + |MARKER|..]
  {
    match FindMatch(description, 0)
    case None => None
    case Some(i) => Some(description[i + |MARKER|..])
  }

  /** extractBookingMetadata: a missing description reads as empty; no match or unparsable JSON gives null. */
  function ExtractBookingMetadata(description: Option<string>, codec: Codec): (r: Option<BookingMetadata>)
    ensures ExtractMetadataText(if description.Some? then description.value else "").None? ==> r.None?
    ensures description.None? ==> r.None?
    ensures var t := ExtractMetadataText(if description.Some? then description.value else "");
            t.Some? ==> r == codec.parse(t.value)
  {
    match ExtractMetadataText(if description.Some? then description.value else "")
    case None => None
    case Some(text) => codec.parse(text)
  }

  /**
   * No position inside the summary can start a match: the summary's last
   * character is a line break, and any match starting before it would either
   * contain it or overlap it with the marker.
   */
  lemma NoMatchInHead(head: string, json: string, j: nat)
    requires |head| >= 5 && head[|head| - 1] == '\n'
    requires j < |head|
    ensures !MatchesAt(head + MARKER + json, j)
  {
    var s := head + MARKER + json;
    var nl := |head| - 1;
    assert s[nl] == '\n';
    if j + |MARKER| < |s| {
      if j + |MARKER| <= nl {
        assert s[j + |MARKER|..][nl - j - |MARKER|] == '\n';
      } else {
        assert s[j..j + |MARKER|][nl - j] == '\n' != MARKER[nl - j];
      }
    }
  }

  /**
   * Extraction from a description built by the template returns exactly the
   * JSON text written, if and only if that text is non-empty and on one line.
   */
  lemma ExtractFromDescription(name: string, email: string, bookingId: string, noteText: string, json: string)
    ensures ExtractMetadataText(Description(name, email, bookingId, noteText, json)) == Some(json)
            <==> |json| > 0 && SingleLine(json)
  {
    var head := DescriptionHead(name, email, bookingId, noteText);
    var s := Description(name, email, bookingId, noteText, json);
    assert head[|head| - 1] == head[|head| - 5..][4] == '\n';
    assert s[|head|..|head| + |MARKER|] == MARKER;
    assert s[|head| + |MARKER|..] == json;
    forall j | 0 <= j < |head| ensures !MatchesAt(s, j) {
      NoMatchInHead(head, json, j);
    }
    if |json| > 0 && SingleLine(json) {
      assert MatchesAt(s, |head|);
      var r := FindMatch(s, 0);
      assert r == Some(|head|);
    } else {
      assert !MatchesAt(s, |head|);
      match FindMatch(s, 0)
      case None =>
      case Some(i) =>
        assert |head| < i;
        assert |s[i + |MARKER|..]| < |json|;
    }
  }

  /**
   * JSON.stringify leaves U+2028 inside a string unescaped, and the pattern's
   * `.` does not match it: for a student named "A\u2028B" the record's JSON
   * text breaks the marker line, and the booking's metadata is never found.
   */
  lemma LineSeparatorHidesMetadata(email: string, bookingId: string, noteText: string, codec: Codec)
    ensures var json := "{\"studentName\":\"A\U{2028}B\"}";
            var d := Description("A\U{2028}B", email, bookingId, noteText, json);
            ExtractMetadataText(d).None? && ExtractBookingMetadata(Some(d), codec).None?
  {
    var json := "{\"studentName\":\"A\U{2028}B\"}";
    var head := DescriptionHead("A\U{2028}B", email, bookingId, noteText);
    var s := Description("A\U{2028}B", email, bookingId, noteText, json);
    assert head[|head| - 1] == head[|head| - 5..][4] == '\n';
    assert s[|head| + |MARKER|..] == json;
    assert s[|head| + |MARKER| + 17] == '\U{2028}';
    forall j | 0 <= j <= |s| ensures !MatchesAt(s, j) {
      if j < |head| {
        NoMatchInHead(head, json, j);
      } else if j == |head| {
        assert s[j + |MARKER|..][17] == '\U{2028}';
      } else if j + |MARKER| < |s| {
        assert s[j..j + |MARKER|][0] == s[j] != 'M';
      }
    }
  }

  /** The metadata written by updateBookingTime: one more modification, stamped; nothing else changes. */
  function BumpModification(m: BookingMetadata, modifiedAt: string): (r: BookingMetadata)
    ensures r.modificationCount == m.modificationCount + 1
    ensures r.lastModifiedAt == Some(modifiedAt)
    ensures r.(modificationCount := m.modificationCount, lastModifiedAt := m.lastModifiedAt) == m
  {
    m.(modificationCount := m.modificationCount + 1, lastModifiedAt := Some(modifiedAt))
  }

  /** Starting from a fresh record, `n` updates leave the count at `n` and every student field untouched. */
  lemma {:induction false} RepeatedBumps(m: BookingMetadata, stamps: seq<string>)
    requires m.modificationCount == 0
    ensures BumpAll(m, stamps).modificationCount == |stamps|
    ensures BumpAll(m, stamps).bookingId == m.bookingId
    ensures BumpAll(m, stamps).studentEmail == m.studentEmail
    ensures BumpAll(m, stamps).createdAt == m.createdAt
  {
    if |stamps| > 0 {
      RepeatedBumps(m, stamps[..|stamps| - 1]);
    }
  }

  /** The metadata after one update per stamp, in order. */
  function BumpAll(m: BookingMetadata, stamps: seq<string>): BookingMetadata {
    if |stamps| == 0 then m
    else BumpModification(BumpAll(m, stamps[..|stamps| - 1]), stamps[|stamps| - 1])
  }
}

=== FILE: policy.dfy ===
/**
 * The booking policy of lib/booking.ts: the booking window, the cancel
 * deadline, the modify deadline with its modification limit, and the lesson
 * end time. Every check takes the current instant `now` as a parameter.
 */
module Policy {
  import opened Config

  const MIN_ADVANCE_MS: int := MIN_ADVANCE_BOOKING_HOURS * MS_PER_HOUR
  const MAX_ADVANCE_MS: int := ADVANCE_BOOKING_DAYS * MS_PER_DAY
  const CANCEL_DEADLINE_MS: int := CANCEL_DEADLINE_HOURS * MS_PER_HOUR
  const MODIFY_DEADLINE_MS: int := MODIFY_DEADLINE_HOURS * MS_PER_HOUR

  /** Why a policy check refused; each stands for one user-facing message. */
  datatype Reason =
    | TooSoon                  // less than 24 hours ahead
    | TooFar                   // more than 30 days ahead
    | CancelDeadlinePassed     // within 24 hours of the lesson
    | ModifyDeadlinePassed     // within 24 hours of the lesson
    | ModificationLimitReached // already modified twice

  /** The outcome of a check: allowed, or refused with the reason reported. */
  datatype Verdict = Allowed | Refused(reason: Reason)

  /** The booking window, as a closed interval of start instants. */
  predicate InBookingWindow(start: Instant, now: Instant) {
    now + MIN_ADVANCE_MS <= start <= now + MAX_ADVANCE_MS
  }

  /**
   * isBookingTimeValid: "too soon" is checked first, then "too far";
   * both comparisons are strict, so both edges of the window are accepted.
   */
  function IsBookingTimeValid(start: Instant, now: Instant): (r: Verdict)
    ensures r == Refused(TooSoon) <==> start < now + MIN_ADVANCE_MS
    ensures r == Refused(TooFar) <==> now + MIN_ADVANCE_MS <= start && now + MAX_ADVANCE_MS < start
    ensures r.Allowed? <==> InBookingWindow(start, now)
  {
    if start < now + MIN_ADVANCE_MS then Refused(TooSoon)
    else if now + MAX_ADVANCE_MS < start then Refused(TooFar)
    else Allowed
  }

  /** canCancelBooking: refused exactly when `now` is past the deadline; the deadline itself is allowed. */
  function CanCancelBooking(lessonStart: Instant, now: Instant): (r: Verdict)
    ensures r.Allowed? <==> now <= lessonStart - CANCEL_DEADLINE_MS
    ensures r.Refused? ==> r.reason == CancelDeadlinePassed
  {
    if now > lessonStart - CANCEL_DEADLINE_MS then Refused(CancelDeadlinePassed) else Allowed
  }

  /**
   * canModifyBooking: the modification count is checked before the deadline,
   * so an exhausted count is the reason reported whatever the time.
   */
  function CanModifyBooking(lessonStart: Instant, modificationCount: int, now: Instant): (r: Verdict)
    ensures modificationCount >= MAX_MODIFICATIONS ==> r == Refused(ModificationLimitReached)
    ensures modificationCount < MAX_MODIFICATIONS ==>
              (r == Refused(ModifyDeadlinePassed) <==> now > lessonStart - MODIFY_DEADLINE_MS)
    ensures r.Allowed? <==> modificationCount < MAX_MODIFICATIONS && now <= lessonStart - MODIFY_DEADLINE_MS
  {
    if modificationCount >= MAX_MODIFICATIONS then Refused(ModificationLimitReached)
    else if now > lessonStart - MODIFY_DEADLINE_MS then Refused(ModifyDeadlinePassed)
    else Allowed
  }

  /** calculateEndTime as written: it adds zero hours, so the "end" is the start. */
  function CalculateEndTime(start: Instant): Instant {
    start
  }

  /** The lesson end the routes actually use: start plus the lesson duration. */
  function LessonEnd(start: Instant): (r: Instant)
    ensures start < r
    ensures r - start == LESSON_DURATION_MINUTES * MS_PER_MINUTE
    ensures r + BUFFER_MS == start + SLOT_INTERVAL_MINUTES * MS_PER_MINUTE
  {
    start + LESSON_MS
  }

  /** calculateEndTime yields an empty lesson, one lesson duration shorter than intended. */
  lemma CalculateEndTimeLosesLesson(start: Instant)
    ensures CalculateEndTime(start) == start
    ensures LessonEnd(start) - CalculateEndTime(start) == LESSON_MS
  {
  }

  /** Both edges of the window are bookable and one millisecond beyond either edge is not. */
  lemma BookingWindowEdges(now: Instant)
    ensures IsBookingTimeValid(now + MIN_ADVANCE_MS, now) == Allowed
    ensures IsBookingTimeValid(now + MIN_ADVANCE_MS - 1, now) == Refused(TooSoon)
    ensures IsBookingTimeValid(now + MAX_ADVANCE_MS, now) == Allowed
    ensures IsBookingTimeValid(now + MAX_ADVANCE_MS + 1, now) == Refused(TooFar)
  {
  }

  /** Any start between two bookable starts is bookable. */
  lemma BookingWindowIsConvex(a: Instant, b: Instant, c: Instant, now: Instant)
    requires a <= b <= c
    requires IsBookingTimeValid(a, now).Allowed? && IsBookingTimeValid(c, now).Allowed?
    ensures IsBookingTimeValid(b, now).Allowed?
  {
  }

  /** With modifications to spare, modifying and cancelling share the same deadline. */
  lemma ModifyAndCancelShareDeadline(lessonStart: Instant, modificationCount: int, now: Instant)
    requires modificationCount < MAX_MODIFICATIONS
    ensures CanModifyBooking(lessonStart, modificationCount, now).Allowed?
            <==> CanCancelBooking(lessonStart, now).Allowed?
  {
  }
}

=== FILE: schemas.dfy ===
/**
 * The input schemas of lib/booking.ts: the booking form, the booking query
 * and the modification request. The format checks the schema library
 * supplies (e-mail address, ISO date-time) are parameters of the model.
 */
module Schemas {
  import opened Wrappers
  import opened Config

  /** The external format checks: an e-mail predicate and an ISO date-time parser. */
  datatype FormatCheckers = FormatCheckers(isEmail: string -> bool, parseDateTime: string -> Option<Instant>)

  /** A field of the parsed JSON body: absent, a string, or a value of any other JSON type. */
  datatype FieldValue = Absent | Text(text: string) | NotText

  /** The fields of the booking form as the request body carries them. */
  datatype BookingForm = BookingForm(
    studentName: FieldValue,
    studentEmail: FieldValue,
    studentTimezone: FieldValue,
    startTimeISO: FieldValue,
    note: FieldValue)

  /** The parsed JSON body: an object (its fields read as a form) or any other JSON value. */
  datatype JsonBody = NotAnObject | FormObject(form: BookingForm)

  /** The parsed booking form, with the default time zone filled in. */
  datatype BookingRequest = BookingRequest(
    studentName: string,
    studentEmail: string,
    studentTimezone: string,
    startTime: Instant,
    note: Option<string>)

  datatype Field =
    | StudentName | StudentEmail | StudentTimezone | StartTimeISO | Note
    | BookingId | Email | NewStartTimeISO

  /** One schema violation; each stands for one user-facing message. */
  datatype Issue =
    | ExpectedObject
    | Required(field: Field)
    | ExpectedString(field: Field)
    | NameTooShort
    | NameTooLong
    | InvalidEmail
    | InvalidDateTime
    | NoteTooLong
    | InvalidBookingId

  const NAME_MIN_LENGTH: nat := 1
  const NAME_MAX_LENGTH: nat := 50
  const NOTE_MAX_LENGTH: nat := 500

  /**
   * String length as the schema library counts it: UTF-16 code units, so a
   * character outside the Basic Multilingual Plane counts twice.
   */
  function Utf16Length(s: string): (n: nat)
    ensures |s| <= n <= 2 * |s|
  {
    if |s| == 0 then 0
    else (if s[0] as int > 0xFFFF then 2 else 1) + Utf16Length(s[1..])
  }

  /** The issues of one required string field checked by `checks`, in order. */
  function FieldIssues(value: FieldValue, field: Field, checks: string -> seq<Issue>): seq<Issue> {
    match value
    case Absent => [Required(field)]
    case NotText => [ExpectedString(field)]
    case Text(s) => checks(s)
  }

  function NameIssues(name: string): seq<Issue> {
    (if Utf16Length(name) < NAME_MIN_LENGTH then [NameTooShort] else [])
    + (if Utf16Length(name) > NAME_MAX_LENGTH then [NameTooLong] else [])
  }

  /** A string field with a default: only a value of another type is an issue. */
  function TimezoneIssues(zone: FieldValue): seq<Issue> {
    if zone.NotText? then [ExpectedString(StudentTimezone)] else []
  }

  /** An optional string field of at most 500 code units. */
  function NoteIssues(note: FieldValue): seq<Issue> {
    match note
    case Absent => []
    case NotText => [ExpectedString(Note)]
    case Text(s) => if Utf16Length(s) > NOTE_MAX_LENGTH then [NoteTooLong] else []
  }

  /** Every issue of the booking form, in the order the schema reports them (field order). */
  function BookingFormIssues(form: BookingForm, fc: FormatCheckers): seq<Issue> {
    FieldIssues(form.studentName, StudentName, NameIssues)
    + FieldIssues(form.studentEmail, StudentEmail, s => if fc.isEmail(s) then [] else [InvalidEmail])
    + TimezoneIssues(form.studentTimezone)
    + FieldIssues(form.startTimeISO, StartTimeISO, s => if fc.parseDateTime(s).Some? then [] else [InvalidDateTime])
    + NoteIssues(form.note)
  }

  /** What the booking form schema accepts, field by field. */
  predicate FormAccepted(form: BookingForm, fc: FormatCheckers) {
    && form.studentName.Text? && 1 <= Utf16Length(form.studentName.text) <= 50
    && form.studentEmail.Text? && fc.isEmail(form.studentEmail.text)
    && !form.studentTimezone.NotText?
    && form.startTimeISO.Text? && fc.parseDateTime(form.startTimeISO.text).Some?
    && !form.note.NotText?
    && (form.note.Text? ==> Utf16Length(form.note.text) <= 500)
  }

  /** bookingFormSchema.safeParse followed by taking the first issue, as the booking route does. */
  function ValidateBookingForm(body: JsonBody, fc: FormatCheckers): (r: Result<BookingRequest, Issue>)
    ensures r.Success? <==> body.FormObject? && FormAccepted(body.form, fc)
    ensures body.NotAnObject? ==> r == Failure(ExpectedObject)
    ensures r.Success? ==>
              var form := body.form;
              && r.value.studentName == form.studentName.text
              && r.value.studentEmail == form.studentEmail.text
              && r.value.startTime == fc.parseDateTime(form.startTimeISO.text).value
              && r.value.note == (if form.note.Text? then Some(form.note.text) else None)
              && r.value.studentTimezone ==
                   (if form.studentTimezone.Text? then form.studentTimezone.text else DEFAULT_STUDENT_TIMEZONE)
    ensures body.FormObject? && body.form.studentName.Absent? ==> r == Failure(Required(StudentName))
    ensures body.FormObject? && body.form.studentName.NotText? ==> r == Failure(ExpectedString(StudentName))
    ensures body.FormObject? && body.form.studentName.Text? && Utf16Length(body.form.studentName.text) == 0 ==>
              r == Failure(NameTooShort)
  {
    match body
    case NotAnObject => Failure(ExpectedObject)
    case FormObject(form) =>
      var issues := BookingFormIssues(form, fc);
      if |issues| > 0 then Failure(issues[0])
      else
        Success(BookingRequest(
          form.studentName.text,
          form.studentEmail.text,
          if form.studentTimezone.Text? then form.studentTimezone.text else DEFAULT_STUDENT_TIMEZONE,
          fc.parseDateTime(form.startTimeISO.text).value,
          if form.note.Text? then Some(form.note.text) else None))
  }

  predicate IsAsciiDigit(c: char) {
    '0' <= c <= '9'
  }

  predicate IsUpperAlnum(c: char) {
    'A' <= c <= 'Z' || '0' <= c <= '9'
  }

  /** The booking-ID pattern `^MZK-\d{8}-[A-Z0-9]{6}$`, position by position. */
  predicate IsBookingIdFormat(s: string) {
    && |s| == 19
    && s[..4] == "MZK-"
    && (forall i :: 4 <= i < 12 ==> IsAsciiDigit(s[i]))
    && s[12] == '-'
    && (forall i :: 13 <= i < 19 ==> IsUpperAlnum(s[i]))
  }

  /**
   * The pattern accepts exactly the prefix, a dash, eight digits, a dash and six
   * upper-case alphanumerics; the literal in the pattern is the configured prefix.
   */
  lemma {:induction false} BookingIdFormatShape(date: string, suffix: string)
    ensures IsBookingIdFormat(BOOKING_ID_PREFIX + "-" + date + "-" + suffix) <==>
              && |date| == 8 && (forall i :: 0 <= i < 8 ==> IsAsciiDigit(date[i]))
              && |suffix| == 6 && (forall i :: 0 <= i < 6 ==> IsUpperAlnum(suffix[i]))
  {
    var s := BOOKING_ID_PREFIX + "-" + date + "-" + suffix;
    assert s[..4] == "MZK-";
    if |date| == 8 && |suffix| == 6 {
      assert forall i :: 0 <= i < 8 ==> s[4 + i] == date[i];
      assert s[12] == '-';
      assert forall i :: 0 <= i < 6 ==> s[13 + i] == suffix[i];
      assert (forall i :: 4 <= i < 12 ==> IsAsciiDigit(s[i])) <==> (forall i :: 0 <= i < 8 ==> IsAsciiDigit(date[i])) by {
        forall i | 0 <= i < 8 ensures IsAsciiDigit(s[4 + i]) == IsAsciiDigit(date[i]) {}
        forall i | 4 <= i < 12 ensures IsAsciiDigit(s[i]) == IsAsciiDigit(date[i - 4]) {}
      }
      assert (forall i :: 13 <= i < 19 ==> IsUpperAlnum(s[i])) <==> (forall i :: 0 <= i < 6 ==> IsUpperAlnum(suffix[i])) by {
        forall i | 0 <= i < 6 ensures IsUpperAlnum(s[13 + i]) == IsUpperAlnum(suffix[i]) {}
        forall i | 13 <= i < 19 ensures IsUpperAlnum(s[i]) == IsUpperAlnum(suffix[i - 13]) {}
      }
    } else if |date| + |suffix| == 14 {
      // the dash after the date lands where the pattern wants a digit or an alphanumeric
      assert s[4 + |date|] == '-';
      if |date| < 8 {
        assert !IsAsciiDigit(s[4 + |date|]);
      } else {
        assert 13 <= 4 + |date| < 19 && !IsUpperAlnum(s[4 + |date|]);
      }
    }
  }

  /** The fields of the booking query (and of the cancel request). */
  datatype BookingQuery = BookingQuery(bookingId: FieldValue, email: FieldValue)

  /** bookingQuerySchema: a booking ID in the pattern above and a valid e-mail, first issue reported. */
  function ValidateBookingQuery(q: BookingQuery, fc: FormatCheckers): (r: Result<(string, string), Issue>)
    ensures r.Success? <==>
              q.bookingId.Text? && IsBookingIdFormat(q.bookingId.text)
              && q.email.Text? && fc.isEmail(q.email.text)
    ensures r.Success? ==> r.value == (q.bookingId.text, q.email.text)
    ensures q.bookingId.Text? && !IsBookingIdFormat(q.bookingId.text) ==> r == Failure(InvalidBookingId)
  {
    var issues :=
      FieldIssues(q.bookingId, BookingId, s => if IsBookingIdFormat(s) then [] else [InvalidBookingId])
      + FieldIssues(q.email, Email, s => if fc.isEmail(s) then [] else [InvalidEmail]);
    if |issues| > 0 then Failure(issues[0]) else Success((q.bookingId.text, q.email.text))
  }

  /** The fields of a modification request. */
  datatype ModifyRequest = ModifyRequest(bookingId: FieldValue, email: FieldValue, newStartTimeISO: FieldValue)

  /** modifyBookingSchema: the query fields plus a new ISO start time, first issue reported. */
  function ValidateModifyRequest(m: ModifyRequest, fc: FormatCheckers): (r: Result<(string, string, Instant), Issue>)
    ensures r.Success? <==>
              && m.bookingId.Text? && IsBookingIdFormat(m.bookingId.text)
              && m.email.Text? && fc.isEmail(m.email.text)
              && m.newStartTimeISO.Text? && fc.parseDateTime(m.newStartTimeISO.text).Some?
    ensures r.Success? ==>
              r.value == (m.bookingId.text, m.email.text, fc.parseDateTime(m.newStartTimeISO.text).value)
    ensures m.bookingId.Text? && !IsBookingIdFormat(m.bookingId.text) ==> r == Failure(InvalidBookingId)
  {
    var issues :=
      FieldIssues(m.bookingId, BookingId, s => if IsBookingIdFormat(s) then [] else [InvalidBookingId])
      + FieldIssues(m.email, Email, s => if fc.isEmail(s) then [] else [InvalidEmail])
      + FieldIssues(m.newStartTimeISO, NewStartTimeISO, s => if fc.parseDateTime(s).Some? then [] else [InvalidDateTime]);
    if |issues| > 0 then Failure(issues[0])
    else Success((m.bookingId.text, m.email.text, fc.parseDateTime(m.newStartTimeISO.text).value))
  }
}

=== FILE: slots.dfy ===
/**
 * The slot generator of lib/google-calendar.ts (getAvailableSlots): one
 * candidate per whole teacher-local hour of the working day, kept when the
 * lesson ends within working hours, starts after `now`, and its interval
 * widened by the trailing buffer meets no busy interval.
 * The teacher's zone is the fixed offset UTC+9, and a day is 24 hours.
 */
module SlotGenerator {
  import opened Config
  import opened CalendarAdapter

  /** A bookable lesson slot. */
  datatype Slot = Slot(startTime: Instant, endTime: Instant)

  /** The instant of teacher-local midnight of local day `day` (days counted from 1970-01-01). */
  function TeacherDayStart(day: int): Instant {
    day * MS_PER_DAY - TEACHER_UTC_OFFSET_MS
  }

  /** The hour of the day, 0..23, shown by a teacher-local clock at `t`. */
  function LocalHour(t: Instant): (h: int)
    ensures 0 <= h < 24
  {
    ((t + TEACHER_UTC_OFFSET_MS) % MS_PER_DAY) / MS_PER_HOUR
  }

  /** The candidate start at teacher-local hour `hour` of `day`. */
  function CandidateStart(day: int, hour: int): Instant {
    TeacherDayStart(day) + hour * MS_PER_HOUR
  }

  function SlotAt(day: int, hour: int): Slot {
    Slot(CandidateStart(day, hour), CandidateStart(day, hour) + LESSON_MS)
  }

  /** No busy interval meets [start, start + lesson + buffer). */
  predicate IsFree(start: Instant, busy: seq<Interval>) {
    forall k :: 0 <= k < |busy| ==> !(start < busy[k].end && start + LESSON_MS + BUFFER_MS > busy[k].start)
  }

  /** The three checks the loop applies to the candidate at `hour`, in the source's terms. */
  predicate Emitted(day: int, hour: int, busy: seq<Interval>, now: Instant) {
    var start := CandidateStart(day, hour);
    && LocalHour(start + LESSON_MS) <= WORKING_HOURS_END
    && IsFree(start, busy)
    && now < start
  }

  /** What a slot at `hour` must satisfy to be offered: in the future and clear of every busy interval. */
  predicate Bookable(day: int, hour: int, busy: seq<Interval>, now: Instant) {
    now < CandidateStart(day, hour) && IsFree(CandidateStart(day, hour), busy)
  }

  /**
   * The end-of-lesson guard never discards anything: a 50-minute lesson
   * starting on the hour ends within the same local hour.
   */
  lemma EndHourGuardNeverFires(day: int, hour: int)
    requires WORKING_HOURS_START <= hour < WORKING_HOURS_END
    ensures LocalHour(CandidateStart(day, hour) + LESSON_MS) == hour
    ensures LocalHour(CandidateStart(day, hour) + LESSON_MS) <= WORKING_HOURS_END
  {
    var x := hour * MS_PER_HOUR + LESSON_MS;
    assert 0 <= x < MS_PER_DAY;
    assert CandidateStart(day, hour) + LESSON_MS + TEACHER_UTC_OFFSET_MS == day * MS_PER_DAY + x;
    assert (day * MS_PER_DAY + x) % MS_PER_DAY == x;
    assert x / MS_PER_HOUR == hour;
  }

  /** For working hours, the source's three checks come down to the two of `Bookable`. */
  lemma EmittedIffBookable(day: int, hour: int, busy: seq<Interval>, now: Instant)
    requires WORKING_HOURS_START <= hour < WORKING_HOURS_END
    ensures Emitted(day, hour, busy, now) <==> Bookable(day, hour, busy, now)
  {
    EndHourGuardNeverFires(day, hour);
  }

  /**
   * The loop from `hour` to the end of working hours: each emitted slot
   * lasts one lesson, starts strictly increase, and a working hour's slot is
   * present exactly when it is bookable.
   */
  function SlotsFrom(day: int, hour: int, busy: seq<Interval>, now: Instant): (r: seq<Slot>)
    requires WORKING_HOURS_START <= hour <= WORKING_HOURS_END
    decreases WORKING_HOURS_END - hour
    ensures forall i :: 0 <= i < |r| ==> r[i].endTime == r[i].startTime + LESSON_MS
    ensures forall i :: 0 <= i < |r| ==> CandidateStart(day, hour) <= r[i].startTime
    ensures forall i, j :: 0 <= i < j < |r| ==> r[i].startTime < r[j].startTime
    ensures forall i :: 0 <= i < |r| ==> exists h :: hour <= h < WORKING_HOURS_END && r[i] == SlotAt(day, h)
    ensures forall h :: hour <= h < WORKING_HOURS_END ==> (SlotAt(day, h) in r <==> Bookable(day, h, busy, now))
  {
    if hour == WORKING_HOURS_END then []
    else
      var rest := SlotsFrom(day, hour + 1, busy, now);
      EmittedIffBookable(day, hour, busy, now);
      SlotsAfter(day, hour, rest);
      if Emitted(day, hour, busy, now) then [SlotAt(day, hour)] + rest else rest
  }

  /** Slots starting no earlier than the next hour all start later than the slot at `hour`. */
  lemma SlotsAfter(day: int, hour: int, rest: seq<Slot>)
    requires forall i :: 0 <= i < |rest| ==> CandidateStart(day, hour + 1) <= rest[i].startTime
    ensures forall i :: 0 <= i < |rest| ==> CandidateStart(day, hour) < rest[i].startTime
    ensures SlotAt(day, hour) !in rest
  {
    assert CandidateStart(day, hour) < CandidateStart(day, hour + 1);
  }

  /** getAvailableSlots for teacher-local day `day`, given that day's busy intervals. */
  function GetAvailableSlots(day: int, busy: seq<Interval>, now: Instant): seq<Slot> {
    SlotsFrom(day, WORKING_HOURS_START, busy, now)
  }

  /**
   * A working hour's slot is offered exactly when it starts after `now` and
   * its buffered interval meets no busy interval; nothing else is offered.
   */
  lemma GeneratedSlotsExact(day: int, busy: seq<Interval>, now: Instant)
    ensures var r := GetAvailableSlots(day, busy, now);
            forall h :: WORKING_HOURS_START <= h < WORKING_HOURS_END ==>
              (SlotAt(day, h) in r <==> now < CandidateStart(day, h) && IsFree(CandidateStart(day, h), busy))
    ensures var r := GetAvailableSlots(day, busy, now);
            forall i :: 0 <= i < |r| ==> exists h :: WORKING_HOURS_START <= h < WORKING_HOURS_END && r[i] == SlotAt(day, h)
  {
  }

  /** Every slot of `r` is the slot of some working hour of `day`. */
  predicate FromWorkingHours(day: int, r: seq<Slot>) {
    forall k :: 0 <= k < |r| ==> exists h :: WORKING_HOURS_START <= h < WORKING_HOURS_END && r[k] == SlotAt(day, h)
  }

  /** The working hour a slot of `r` was generated for. */
  lemma HourOf(day: int, r: seq<Slot>, i: nat) returns (hour: int)
    requires i < |r| && FromWorkingHours(day, r)
    ensures WORKING_HOURS_START <= hour < WORKING_HOURS_END && r[i] == SlotAt(day, hour)
  {
    hour :| WORKING_HOURS_START <= hour < WORKING_HOURS_END && r[i] == SlotAt(day, hour);
  }

  /** Slots of working hours that all start after `now` lie in the future and inside the working window. */
  lemma HourlySlotsInWindow(day: int, r: seq<Slot>, now: Instant)
    requires FromWorkingHours(day, r)
    requires forall h :: WORKING_HOURS_START <= h < WORKING_HOURS_END && SlotAt(day, h) in r ==> now < CandidateStart(day, h)
    ensures forall i :: 0 <= i < |r| ==>
              && now < r[i].startTime
              && r[i].endTime == r[i].startTime + LESSON_MS
              && TeacherDayStart(day) + WORKING_HOURS_START * MS_PER_HOUR <= r[i].startTime
              && r[i].endTime <= TeacherDayStart(day) + WORKING_HOURS_END * MS_PER_HOUR
  {
    forall i | 0 <= i < |r|
      ensures now < r[i].startTime
      ensures TeacherDayStart(day) + WORKING_HOURS_START * MS_PER_HOUR <= r[i].startTime
      ensures r[i].endTime <= TeacherDayStart(day) + WORKING_HOURS_END * MS_PER_HOUR
    {
      var h := HourOf(day, r, i);
      assert SlotAt(day, h) in r;
    }
  }

  /** Every offered slot is one lesson long, in the future, and inside the working hours of its day. */
  lemma GeneratedSlotsInWorkingHours(day: int, busy: seq<Interval>, now: Instant)
    ensures var r := GetAvailableSlots(day, busy, now);
            forall i :: 0 <= i < |r| ==>
              && now < r[i].startTime
              && r[i].endTime == r[i].startTime + LESSON_MS
              && TeacherDayStart(day) + WORKING_HOURS_START * MS_PER_HOUR <= r[i].startTime
              && r[i].endTime <= TeacherDayStart(day) + WORKING_HOURS_END * MS_PER_HOUR
  {
    var r := GetAvailableSlots(day, busy, now);
    assert r == SlotsFrom(day, WORKING_HOURS_START, busy, now);
    SlotsFromInWindow(day, WORKING_HOURS_START, busy, now);
  }

  /** The slots generated from any working hour on lie in working hours and after `now`. */
  lemma SlotsFromInWindow(day: int, hour: int, busy: seq<Interval>, now: Instant)
    requires WORKING_HOURS_START <= hour <= WORKING_HOURS_END
    ensures var r := SlotsFrom(day, hour, busy, now);
            forall i :: 0 <= i < |r| ==>
              && now < r[i].startTime
              && r[i].endTime == r[i].startTime + LESSON_MS
              && TeacherDayStart(day) + WORKING_HOURS_START * MS_PER_HOUR <= r[i].startTime
              && r[i].endTime <= TeacherDayStart(day) + WORKING_HOURS_END * MS_PER_HOUR
  {
    SlotsFromFromWorkingHours(day, hour, busy, now);
    HourlySlotsInWindow(day, SlotsFrom(day, hour, busy, now), now);
  }

  /** Slots on distinct hours of one day, in increasing order, leave the buffer free between them. */
  lemma HourlySlotsKeepBuffer(day: int, r: seq<Slot>)
    requires FromWorkingHours(day, r)
    requires forall i, j :: 0 <= i < j < |r| ==> r[i].startTime < r[j].startTime
    ensures forall i, j :: 0 <= i < j < |r| ==> r[i].endTime + BUFFER_MS <= r[j].startTime
  {
    forall i, j | 0 <= i < j < |r| ensures r[i].endTime + BUFFER_MS <= r[j].startTime {
      var hi := HourOf(day, r, i);
      var hj := HourOf(day, r, j);
      assert hi < hj;
    }
  }

  /** Offered slots, padded by the buffer, never overlap one another. */
  lemma GeneratedSlotsKeepBuffer(day: int, busy: seq<Interval>, now: Instant)
    ensures var r := GetAvailableSlots(day, busy, now);
            forall i, j :: 0 <= i < j < |r| ==> r[i].endTime + BUFFER_MS <= r[j].startTime
  {
    var r := GetAvailableSlots(day, busy, now);
    assert r == SlotsFrom(day, WORKING_HOURS_START, busy, now);
    SlotsFromKeepBuffer(day, WORKING_HOURS_START, busy, now);
  }

  lemma SlotsFromKeepBuffer(day: int, hour: int, busy: seq<Interval>, now: Instant)
    requires WORKING_HOURS_START <= hour <= WORKING_HOURS_END
    ensures var r := SlotsFrom(day, hour, busy, now);
            forall i, j :: 0 <= i < j < |r| ==> r[i].endTime + BUFFER_MS <= r[j].startTime
  {
    SlotsFromFromWorkingHours(day, hour, busy, now);
    HourlySlotsKeepBuffer(day, SlotsFrom(day, hour, busy, now));
  }

  /** The loop from any working hour on emits only slots of working hours. */
  lemma SlotsFromFromWorkingHours(day: int, hour: int, busy: seq<Interval>, now: Instant)
    requires WORKING_HOURS_START <= hour <= WORKING_HOURS_END
    ensures FromWorkingHours(day, SlotsFrom(day, hour, busy, now))
  {
    var r := SlotsFrom(day, hour, busy, now);
    forall k | 0 <= k < |r| ensures exists h :: WORKING_HOURS_START <= h < WORKING_HOURS_END && r[k] == SlotAt(day, h) {
      var h :| hour <= h < WORKING_HOURS_END && r[k] == SlotAt(day, h);
      assert WORKING_HOURS_START <= h;
    }
  }

  /** The loop steps one hour, which happens to equal the declared slot interval. */
  lemma HourStepIsSlotInterval(day: int, hour: int)
    ensures CandidateStart(day, hour + 1) - CandidateStart(day, hour) == SLOT_INTERVAL_MINUTES * MS_PER_MINUTE
    ensures SlotAt(day, hour).endTime + BUFFER_MS == CandidateStart(day, hour + 1)
  {
  }

  /** Every event of the calendar as a busy interval. */
  function AllIntervals(cal: Calendar): (r: seq<Interval>)
    ensures |r| == |cal|
    ensures forall i :: 0 <= i < |cal| ==> r[i] == Interval(cal[i].start, cal[i].end)
  {
    seq(|cal|, i requires 0 <= i < |cal| => Interval(cal[i].start, cal[i].end))
  }

  /** The window of the day's busy query: teacher-local midnight to the last millisecond of the day. */
  function DayQueryStart(day: int): Instant { TeacherDayStart(day) }
  function DayQueryEnd(day: int): Instant { TeacherDayStart(day) + MS_PER_DAY - 1 }

  /** A working-hour candidate is free of the day's busy answer iff it is free of the whole calendar. */
  lemma DayQueryFreeness(cal: Calendar, day: int, hour: int)
    requires WORKING_HOURS_START <= hour < WORKING_HOURS_END
    ensures IsFree(CandidateStart(day, hour), QueryBusy(cal, DayQueryStart(day), DayQueryEnd(day)))
            <==> IsFree(CandidateStart(day, hour), AllIntervals(cal))
  {
    if IsFree(CandidateStart(day, hour), QueryBusy(cal, DayQueryStart(day), DayQueryEnd(day))) {
      DayFreeIsCalendarFree(cal, day, hour);
    }
    if IsFree(CandidateStart(day, hour), AllIntervals(cal)) {
      CalendarFreeIsDayFree(cal, day, hour);
    }
  }

  /** An event meeting a working-hour candidate's buffered interval meets the day, so the day's answer has it. */
  lemma DayFreeIsCalendarFree(cal: Calendar, day: int, hour: int)
    requires WORKING_HOURS_START <= hour < WORKING_HOURS_END
    requires IsFree(CandidateStart(day, hour), QueryBusy(cal, DayQueryStart(day), DayQueryEnd(day)))
    ensures IsFree(CandidateStart(day, hour), AllIntervals(cal))
  {
    var start := CandidateStart(day, hour);
    var lo, hi := DayQueryStart(day), DayQueryEnd(day);
    var q := QueryBusy(cal, lo, hi);
    var all := AllIntervals(cal);
    assert lo <= start && start + LESSON_MS + BUFFER_MS <= hi;
    forall k | 0 <= k < |all| ensures !(start < all[k].end && start + LESSON_MS + BUFFER_MS > all[k].start) {
      assert all[k] == Interval(cal[k].start, cal[k].end);
      assert start < all[k].end && start + LESSON_MS + BUFFER_MS > all[k].start ==> Overlaps(cal[k], lo, hi);
    }
  }

  /** Every interval of the day's answer is some event's interval, so a candidate clear of all events is clear of it. */
  lemma CalendarFreeIsDayFree(cal: Calendar, day: int, hour: int)
    requires IsFree(CandidateStart(day, hour), AllIntervals(cal))
    ensures IsFree(CandidateStart(day, hour), QueryBusy(cal, DayQueryStart(day), DayQueryEnd(day)))
  {
    var start := CandidateStart(day, hour);
    var q := QueryBusy(cal, DayQueryStart(day), DayQueryEnd(day));
    var all := AllIntervals(cal);
    forall k | 0 <= k < |q| ensures !(start < q[k].end && start + LESSON_MS + BUFFER_MS > q[k].start) {
      QueryBusySubset(cal, DayQueryStart(day), DayQueryEnd(day), k);
      var j :| 0 <= j < |all| && all[j] == q[k];
      assert !(start < all[j].end && start + LESSON_MS + BUFFER_MS > all[j].start);
    }
  }

  /** Each interval of the busy answer is the interval of some event. */
  lemma {:induction false} QueryBusySubset(cal: Calendar, lo: Instant, hi: Instant, k: nat)
    requires k < |QueryBusy(cal, lo, hi)|
    ensures QueryBusy(cal, lo, hi)[k] in AllIntervals(cal)
  {
    var q := QueryBusy(cal, lo, hi);
    var rest := QueryBusy(cal[1..], lo, hi);
    var head := Interval(cal[0].start, cal[0].end);
    if Overlaps(cal[0], lo, hi) {
      assert q == [head] + rest;
      if k == 0 {
        assert AllIntervals(cal)[0] == head;
      } else {
        QueryBusySubset(cal[1..], lo, hi, k - 1);
        TailIntervalInAll(cal, rest[k - 1]);
      }
    } else {
      assert q == rest;
      QueryBusySubset(cal[1..], lo, hi, k);
      TailIntervalInAll(cal, rest[k]);
    }
  }

  lemma TailIntervalInAll(cal: Calendar, x: Interval)
    requires |cal| > 0 && x in AllIntervals(cal[1..])
    ensures x in AllIntervals(cal)
  {
    var j :| 0 <= j < |cal| - 1 && AllIntervals(cal[1..])[j] == x;
    assert AllIntervals(cal)[j + 1] == x;
  }


  /**
   * Asking the remote only for the day's busy intervals loses nothing: the
   * slots are those the whole calendar would give.
   */
  lemma {:induction false} DayQuerySuffices(cal: Calendar, day: int, hour: int, now: Instant)
    requires WORKING_HOURS_START <= hour <= WORKING_HOURS_END
    decreases WORKING_HOURS_END - hour
    ensures SlotsFrom(day, hour, QueryBusy(cal, DayQueryStart(day), DayQueryEnd(day)), now)
            == SlotsFrom(day, hour, AllIntervals(cal), now)
  {
    if hour < WORKING_HOURS_END {
      DayQueryFreeness(cal, day, hour);
      DayQuerySuffices(cal, day, hour + 1, now);
    }
  }
}

=== FILE: slots_route.dfy ===
/**
 * The available-slots endpoint (app/api/calendar/available-slots/route.ts):
 * check the date parameter, ask the remote for the day's busy intervals,
 * generate the day's slots, and keep those the booking window allows, in
 * order. The date parser and the two clock readings are parameters.
 */
module SlotsRoute {
  import opened Wrappers
  import opened Config
  import opened Policy
  import opened Errors
  import opened CalendarAdapter
  import opened SlotGenerator

  datatype SlotsResponse =
    | Listed(date: string, teacherTimezone: string, studentTimezone: string, slots: seq<Slot>)  // status 200
    | SlotsRejected(status: int, error: BookingError)

  /** `a` is `b` with some elements left out, the rest kept in order. */
  predicate IsSubsequence<T(==)>(a: seq<T>, b: seq<T>) {
    if |a| == 0 then true
    else if |b| == 0 then false
    else if a[0] == b[0] then IsSubsequence(a[1..], b[1..])
    else IsSubsequence(a, b[1..])
  }

  /** The slots whose start the booking window allows at `now`, in their original order. */
  function FilterBookable(slots: seq<Slot>, now: Instant): (r: seq<Slot>)
    ensures IsSubsequence(r, slots)
    ensures forall i :: 0 <= i < |r| ==> InBookingWindow(r[i].startTime, now)
    ensures forall s :: s in slots && InBookingWindow(s.startTime, now) ==> s in r
    ensures forall s :: s in r ==> s in slots
  {
    if |slots| == 0 then []
    else
      var rest := FilterBookable(slots[1..], now);
      if IsBookingTimeValid(slots[0].startTime, now).Allowed? then
        assert ([slots[0]] + rest)[1..] == rest;
        [slots[0]] + rest
      else
        SubsequenceOfTail(rest, slots);
        rest
  }

  lemma SubsequenceOfTail<T>(a: seq<T>, b: seq<T>)
    requires |b| > 0 && IsSubsequence(a, b[1..])
    ensures IsSubsequence(a, b)
  {
    if |a| > 0 && a[0] == b[0] {
      SubsequenceDropHead(a, b[1..]);
    }
  }

  lemma {:induction false} SubsequenceDropHead<T>(a: seq<T>, b: seq<T>)
    requires |a| > 0 && IsSubsequence(a, b)
    ensures IsSubsequence(a[1..], b)
  {
    if |b| > 0 {
      if a[0] == b[0] {
        SubsequenceOfTail(a[1..], b);
      } else {
        SubsequenceDropHead(a, b[1..]);
        SubsequenceOfTail(a[1..], b);
      }
    }
  }

  /** A subsequence of a strictly increasing sequence of starts is strictly increasing. */
  lemma {:induction false} SubsequenceKeepsOrder(a: seq<Slot>, b: seq<Slot>)
    requires IsSubsequence(a, b)
    requires forall i, j :: 0 <= i < j < |b| ==> b[i].startTime < b[j].startTime
    ensures forall i, j :: 0 <= i < j < |a| ==> a[i].startTime < a[j].startTime
    ensures forall i :: 0 <= i < |a| ==> a[i] in b
  {
    if |a| > 0 && |b| > 0 {
      assert forall i, j :: 0 <= i < j < |b[1..]| ==> b[1..][i].startTime < b[1..][j].startTime;
      if a[0] == b[0] {
        SubsequenceKeepsOrder(a[1..], b[1..]);
        forall j | 0 < j < |a| ensures a[0].startTime < a[j].startTime {
          assert a[1..][j - 1] in b[1..];
        }
        forall i | 0 <= i < |a| ensures a[i] in b {
          if i > 0 { assert a[1..][i - 1] in b[1..]; }
        }
      } else {
        SubsequenceKeepsOrder(a, b[1..]);
      }
    }
  }

  /** `searchParams.get('timezone') || DEFAULT_STUDENT_TIMEZONE`: an absent or empty zone falls back. */
  function StudentTimezone(timezoneParam: Option<string>): string {
    if timezoneParam.Some? && timezoneParam.value != "" then timezoneParam.value else DEFAULT_STUDENT_TIMEZONE
  }

  /**
   * GET /api/calendar/available-slots. `parseDay` turns the date parameter
   * into a teacher-local day, or fails; `generatorNow` is the clock the
   * generator reads and `now` the one the booking-window filter reads.
   * `zoneKnown` says whether the time-zone formatter accepts a zone name:
   * formatting a listed slot in an unknown student zone throws, and the
   * handler answers 500.
   */
  function Get(dateParam: Option<string>, timezoneParam: Option<string>, parseDay: string -> Option<int>,
               zoneKnown: string -> bool, link: Link, cal: Calendar, generatorNow: Instant, now: Instant)
    : (r: SlotsResponse)
    ensures (dateParam.None? || dateParam.value == "") ==>
              r == SlotsRejected(400, BookingError(INVALID_INPUT, DateMissing))
    ensures dateParam.Some? && dateParam.value != "" && parseDay(dateParam.value).None? ==>
              r == SlotsRejected(400, BookingError(INVALID_INPUT, DateUnparsable))
    ensures dateParam.Some? && dateParam.value != "" && parseDay(dateParam.value).Some? ==>
              var day := parseDay(dateParam.value).value;
              var generated := GetAvailableSlots(day, QueryBusy(cal, DayQueryStart(day), DayQueryEnd(day)), generatorNow);
              (r.Listed? <==>
                 && link.Up?
                 && (zoneKnown(StudentTimezone(timezoneParam))
                     || forall s :: s in generated ==> !InBookingWindow(s.startTime, now)))
    ensures r.SlotsRejected? && r.status == 500 ==> r.error == BookingError(INTERNAL_ERROR, SlotsFetchFailed)
    ensures r.Listed? ==>
              && r.date == dateParam.value
              && r.teacherTimezone == TEACHER_TIMEZONE
              && r.studentTimezone == StudentTimezone(timezoneParam)
    ensures r.Listed? ==>
              var day := parseDay(dateParam.value).value;
              var generated := GetAvailableSlots(day, QueryBusy(cal, DayQueryStart(day), DayQueryEnd(day)), generatorNow);
              && IsSubsequence(r.slots, generated)
              && (forall i :: 0 <= i < |r.slots| ==> InBookingWindow(r.slots[i].startTime, now))
              && (forall s :: s in generated && InBookingWindow(s.startTime, now) ==> s in r.slots)
  {
    if dateParam.None? || dateParam.value == "" then
      SlotsRejected(400, BookingError(INVALID_INPUT, DateMissing))
    else
      match parseDay(dateParam.value)
      case None => SlotsRejected(400, BookingError(INVALID_INPUT, DateUnparsable))
      case Some(day) =>
        match GetBusySlots(link, cal, DayQueryStart(day), DayQueryEnd(day))
        case Failure(_) => SlotsRejected(500, BookingError(INTERNAL_ERROR, SlotsFetchFailed))
        case Success(busy) =>
          var listed := FilterBookable(GetAvailableSlots(day, busy, generatorNow), now);
          if |listed| > 0 && !zoneKnown(StudentTimezone(timezoneParam)) then
            SlotsRejected(500, BookingError(INTERNAL_ERROR, SlotsFetchFailed))
          else
            Listed(dateParam.value, TEACHER_TIMEZONE, StudentTimezone(timezoneParam), listed)
  }

  /**
   * Once the date parses, every answer other than the listing is the 500
   * of the handler's catch: an unreachable calendar and a zone the
   * formatter refuses end the same way.
   */
  lemma FailedListingIs500(dateParam: Option<string>, timezoneParam: Option<string>, parseDay: string -> Option<int>,
                           zoneKnown: string -> bool, link: Link, cal: Calendar, generatorNow: Instant, now: Instant)
    requires dateParam.Some? && dateParam.value != "" && parseDay(dateParam.value).Some?
    ensures var r := Get(dateParam, timezoneParam, parseDay, zoneKnown, link, cal, generatorNow, now);
            !r.Listed? ==> r == SlotsRejected(500, BookingError(INTERNAL_ERROR, SlotsFetchFailed))
  {
  }

  /**
   * The listed slots, characterised against the whole calendar: a working
   * hour's slot is listed exactly when it is after the generator's clock,
   * clear of every event by the buffer, and inside the booking window; the
   * list is in increasing order and each entry is one lesson long. The
   * student's zone is one the formatter accepts.
   */
  lemma ListedSlots(dateParam: Option<string>, timezoneParam: Option<string>, parseDay: string -> Option<int>,
                    zoneKnown: string -> bool, cal: Calendar, generatorNow: Instant, now: Instant)
    requires dateParam.Some? && dateParam.value != "" && parseDay(dateParam.value).Some?
    requires zoneKnown(StudentTimezone(timezoneParam))
    ensures var r := Get(dateParam, timezoneParam, parseDay, zoneKnown, Up, cal, generatorNow, now);
            var day := parseDay(dateParam.value).value;
            && r.Listed?
            && (forall h :: WORKING_HOURS_START <= h < WORKING_HOURS_END ==>
                  (SlotAt(day, h) in r.slots <==>
                     && generatorNow < CandidateStart(day, h)
                     && IsFree(CandidateStart(day, h), AllIntervals(cal))
                     && InBookingWindow(CandidateStart(day, h), now)))
            && (forall i, j :: 0 <= i < j < |r.slots| ==> r.slots[i].startTime < r.slots[j].startTime)
            && (forall i :: 0 <= i < |r.slots| ==> r.slots[i].endTime == r.slots[i].startTime + LESSON_MS)
  {
    var day := parseDay(dateParam.value).value;
    ListingOfCalendar(dateParam, timezoneParam, parseDay, zoneKnown, cal, generatorNow, now);
    CalendarListing(day, cal, generatorNow, now);
  }

  /** The filtered slots generated against the whole calendar, hour by hour. */
  lemma CalendarListing(day: int, cal: Calendar, generatorNow: Instant, now: Instant)
    ensures ListingShaped(day, FilterBookable(GetAvailableSlots(day, AllIntervals(cal), generatorNow), now),
                          AllIntervals(cal), generatorNow, now)
  {
    var generated := GetAvailableSlots(day, AllIntervals(cal), generatorNow);
    GeneratedShape(day, AllIntervals(cal), generatorNow);
    FilterOfGenerated(day, generated, FilterBookable(generated, now), AllIntervals(cal), generatorNow, now);
  }

  /**
   * What the generator promises about `generated`: a working hour's slot is
   * there exactly when it is after the clock and free of `busy`, starts
   * increase, and each slot lasts one lesson.
   */
  predicate GeneratedShaped(day: int, generated: seq<Slot>, busy: seq<Interval>, generatorNow: Instant) {
    && (forall h :: WORKING_HOURS_START <= h < WORKING_HOURS_END ==>
          (SlotAt(day, h) in generated <==> generatorNow < CandidateStart(day, h) && IsFree(CandidateStart(day, h), busy)))
    && (forall i, j :: 0 <= i < j < |generated| ==> generated[i].startTime < generated[j].startTime)
    && (forall i :: 0 <= i < |generated| ==> generated[i].endTime == generated[i].startTime + LESSON_MS)
  }

  /** The same for the listing, with the booking window added to the hour condition. */
  predicate ListingShaped(day: int, listed: seq<Slot>, busy: seq<Interval>, generatorNow: Instant, now: Instant) {
    && (forall h :: WORKING_HOURS_START <= h < WORKING_HOURS_END ==>
          (SlotAt(day, h) in listed <==>
             && generatorNow < CandidateStart(day, h)
             && IsFree(CandidateStart(day, h), busy)
             && InBookingWindow(CandidateStart(day, h), now)))
    && (forall i, j :: 0 <= i < j < |listed| ==> listed[i].startTime < listed[j].startTime)
    && (forall i :: 0 <= i < |listed| ==> listed[i].endTime == listed[i].startTime + LESSON_MS)
  }

  /** The three facts about the generator's output that the filter step uses. */
  lemma GeneratedShape(day: int, busy: seq<Interval>, generatorNow: Instant)
    ensures GeneratedShaped(day, GetAvailableSlots(day, busy, generatorNow), busy, generatorNow)
  {
    var generated := GetAvailableSlots(day, busy, generatorNow);
    assert generated == SlotsFrom(day, WORKING_HOURS_START, busy, generatorNow);
    GeneratedSlotsExact(day, busy, generatorNow);
  }

  /** With the remote up and a known zone, the listing is the filter of the slots generated against the whole calendar. */
  lemma ListingOfCalendar(dateParam: Option<string>, timezoneParam: Option<string>, parseDay: string -> Option<int>,
                          zoneKnown: string -> bool, cal: Calendar, generatorNow: Instant, now: Instant)
    requires dateParam.Some? && dateParam.value != "" && parseDay(dateParam.value).Some?
    requires zoneKnown(StudentTimezone(timezoneParam))
    ensures var day := parseDay(dateParam.value).value;
            Get(dateParam, timezoneParam, parseDay, zoneKnown, Up, cal, generatorNow, now)
              == Listed(dateParam.value, TEACHER_TIMEZONE, StudentTimezone(timezoneParam),
                        FilterBookable(GetAvailableSlots(day, AllIntervals(cal), generatorNow), now))
  {
    var day := parseDay(dateParam.value).value;
    DayQuerySuffices(cal, day, WORKING_HOURS_START, generatorNow);
  }

  /** The filter step of `ListedSlots`, over the generator's characterisation alone. */
  lemma FilterOfGenerated(day: int, generated: seq<Slot>, listed: seq<Slot>, busy: seq<Interval>,
                          generatorNow: Instant, now: Instant)
    requires GeneratedShaped(day, generated, busy, generatorNow)
    requires IsSubsequence(listed, generated)
    requires forall i :: 0 <= i < |listed| ==> InBookingWindow(listed[i].startTime, now)
    requires forall s :: s in generated && InBookingWindow(s.startTime, now) ==> s in listed
    ensures ListingShaped(day, listed, busy, generatorNow, now)
  {
    SubsequenceKeepsOrder(listed, generated);
    forall i | 0 <= i < |listed| ensures listed[i].endTime == listed[i].startTime + LESSON_MS {
      var k :| 0 <= k < |generated| && generated[k] == listed[i];
    }
  }
}

=== FILE: wrappers.dfy ===
/** Failure-carrying result types shared by the whole model. */
module Wrappers {

  datatype Option<+T> = None | Some(value: T)

  datatype Result<+R, +E> = Success(value: R) | Failure(error: E)
}
